=== FILE: README.md ===
# Django Girls offline tutor — a Dafny model

This project models the logic of the Django Girls offline tutor: two
terminal chat loops that drive a Django Girls tutorial with a small local
language model, the tutorial object they drive, the tool server the second
loop calls, the Rich front end both loops use, and a stand-alone local chat
script.

- `tutorial.dfy` (module `Tutorial`) is the `TutorialAPI` object from
  `tutorial_api.py`: a cursor over ten content keys, a set of completed
  steps, and `show`, `next_step` and `help`. Tutorial prose and code examples
  are opaque tokens, one per key. The fixed replies (`help` tips, the
  completion message, the topic listing) are spelled out.
- `extraction.dfy` (module `Extraction`) covers the two regular-expression
  searches of `django-girls-offline.py`: first a fenced python block with a
  lazy body, then a bare `tutorial.<word>(...)` call. Each search is defined
  position by position. Each is proved equal to a description that does not
  mention the search: the leftmost match, and for the fence the shortest
  body.
- `offline.dfy` (module `Offline`) is one turn of the offline loop.
  - The input line is stripped; it is skipped if empty, and the loop ends
    on `/exit` or `/quit`.
  - The model is asked and code is extracted from its reply.
  - The code is run against the tutorial object. The outcome is shown, and
    the history is trimmed to the system message plus the last eight
    entries.
- `chat.dfy` (module `Chat`) holds what both chat loops share: the
  message and panel kinds, the input-line classification and the history
  trimming.
- `mcp_client.dfy` (module `McpClient`) is one turn of the tool-calling
  loop of `django_girls_mcp.py`.
  - A json fence is stripped from the agent's last message. The payload is
    parsed and a non-list value is wrapped into a list.
  - Each descriptor is normalised into a tool name and arguments through
    the `or`-chains of the source.
  - The tool is looked up in the fixed registry and run. Results and
    errors are shown, and the history is trimmed.
- `mcp_server.dfy` (module `McpServer`) holds the two tools of
  `django_girls_mcp_server.py` that compute something:
  - `explain_programming_concept`, a first-key-in-order substring match on
    the lower-cased input;
  - `verify_environment`, a report built from three shell probes and the
    environment.
- `display.dfy` (module `Display`) is the width logic of `ui_rich.py`:
  - the panel width;
  - the four styling tiers of agent and system panels;
  - the three prompt tiers and the input fallback to the empty line.
- `local_chat.dfy` (module `LocalChat`) is `example_local.py`:
  - a streamed reply is assembled fragment by fragment, by a loop proved
    against a functional definition;
  - the loop keeps an untrimmed history that starts with an optional system
    prompt.
- `text.dfy` and `wrappers.dfy` hold the string operations (`in`, `lower`,
  `strip`, `find`) and `Option`.

The language model, the agent, the MCP transport, the shell, the
environment variables and the terminal are all parameters of the
functions that need them:
- the model's reply is a `Completion`/`AgentReply` value;
- `json.loads` is a function `parse`;
- a registered tool is a function `run`;
- the exception text for code outside the accepted shapes is a function
  `raised`;
- a shell probe is a function `run` from command to `Probe`;
- `os.environ` is a map;
- the terminal width is an `Option<int>`, where `None` means the size
  lookup raised;
- the model server of the local chat is a function from the history sent
  to the `Stream` it answers.

An exception that escapes a chat loop is modelled as the outcome `Crash`.
Examples are a failed model request, unparsable JSON, a descriptor that is
not a dictionary, and end of input in `example_local.py`.

Behaviour that the code shows and that the model states as proved fact:
- `show('models_code')` is answered by the listing, even though the offline
  system prompt advertises that key. The code-example branch is reachable
  only for `urls` and `template`, because `models`, `views` and `admin` are
  also content keys and the content dictionary is consulted first.
- Matching `help` on "no such table" gives the migrations tip only when
  neither "django not found" nor "no module" also occurs. The earlier rule
  wins.
- `"arguments" or "parameters"` in `django_girls_mcp.py` evaluates to
  `"arguments"`, so a `parameters` entry nested under `function_call` or
  `function` is never consulted.
- The `try` of the tool loop covers the tool call and the display and
  history update of its result. The `try` of the offline loop covers the
  `eval` and the display and history update of its result, and a bare
  `except` swallows any failure while the `help` reply is shown. The other
  displays of both loops (the error notice and the raw reply) sit outside
  every `try`, so a failure there would end the program; the model takes
  every display inside `Respond` to succeed (see "## Left out").
- `get_user_input` in `ui_rich.py` already turns end of input and Ctrl-C
  into the empty line, which both tutorial loops skip. So once the input is
  exhausted, both loops go round forever without a change. Their own
  `except (EOFError, KeyboardInterrupt)` exit is reachable only through an
  input source other than that method. The model keeps it as the
  `Interrupted` input.
- The prompt of `get_user_input` called compact (`You>`, up to 50 columns)
  is one character longer than the one called full (`You`).
- The name of an unknown tool is shown through Python's `repr`. A name
  holding a single quote and no double quote is therefore shown between
  double quotes.

## Model

| member | source | states |
|---|---|---|
| Text.Strip | django-girls-offline.py:53 | `strip()` neither starts nor ends with white space, and is empty exactly when the line is all white space |
| Text.StripIsSlice | example_local.py:90 | the stripped line is a slice of the input with only white space cut off either end |
| Text.StripIdempotent | example_local.py:90 | stripping twice is stripping once |
| Text.ToLower | django-girls-offline.py:60 | `lower()` keeps the length and lower-cases every character |
| Text.ToLowerIdempotent | tutorial_api.py:65 | lower-casing twice is lower-casing once |
| Text.FindFrom | django-girls-offline.py:71 | `find`: the first position at or after `from` where the pattern occurs, and no occurrence at all when none is returned |
| Chat.Trim | django-girls-offline.py:103-106 | a history longer than ten becomes its first entry plus its last eight; a shorter one is unchanged; the first and last entries survive |
| Chat.TutorInput | django-girls-offline.py:53-62 | a blank line is skipped, `/exit` and `/quit` in any case end the loop, any other line is said after stripping |
| Tutorial.Init | tutorial_api.py:10-12 | the cursor starts at the first step of the flow with nothing completed, and the state is valid |
| Tutorial.Show | tutorial_api.py:37-46 | a content key moves the cursor and files the old cursor as completed; a code-only key returns the fenced example; anything else returns the listing and leaves the state alone; completion never shrinks |
| Tutorial.SnippetBranchOnlyUrlsAndTemplate | tutorial_api.py:29-46 | the fenced code example is returned exactly for `urls` and `template` |
| Tutorial.AdvertisedCodeKeyIsUnknown | django-girls-offline.py:33 | the advertised `models_code` key yields the listing and leaves the state alone |
| Tutorial.ShowTwice | tutorial_api.py:37-42 | showing a key twice answers the same text, and a content key is then completed |
| Tutorial.ShowAllKeepsInvariant | tutorial_api.py:37-46 | over any sequence of `show` calls the state stays valid and completed steps are never lost |
| Tutorial.IndexOf | tutorial_api.py:54 | `list.index`: the first position of the element, or absence |
| Tutorial.FlowDistinct | tutorial_api.py:50-51 | the ten flow steps are pairwise different |
| Tutorial.NextStepSuccessor | tutorial_api.py:48-61 | at flow position `i` the suggestion names step `i+1`; at the last step completion is reported |
| Tutorial.NextStepCursorInFlow | tutorial_api.py:53-59 | under the invariant the cursor is always in the flow, so the `ValueError` branch is dead |
| Tutorial.NextStepAtTest | tutorial_api.py:55-61 | at `test` every state reports completion |
| Tutorial.NextStep | tutorial_api.py:48-61 | `next_step`; characterised by NextStepSuccessor, NextStepCursorInFlow and NextStepAtTest |
| Tutorial.Help | tutorial_api.py:63-74 | `help`; characterised by HelpFirstMatchWins, HelpCaseInsensitive and HelpDefault |
| Tutorial.HelpRepliesDistinct | tutorial_api.py:67-74 | the four `help` replies are pairwise different |
| Tutorial.HelpFirstMatchWins | tutorial_api.py:63-74 | the virtual-environment, migrations and template tips are each given exactly when their rule is the first whose phrase occurs in the lower-cased text, and the generic reply exactly when no phrase occurs |
| Tutorial.HelpCaseInsensitive | tutorial_api.py:65 | `help` ignores letter case |
| Tutorial.HelpDefault | tutorial_api.py:63 | the default empty argument gets the generic reply |
| Extraction.FencedAtParts | django-girls-offline.py:71 | a fenced block is an opening fence, the body, and a closing fence right after it |
| Extraction.FenceAtFound | django-girls-offline.py:71 | what the fence pattern matches at a position is a fenced block there |
| Extraction.FencedFound | django-girls-offline.py:71 | every fenced block at a position is found there, with a body no longer than its own |
| Extraction.FenceAtShortest | django-girls-offline.py:71 | at each position the lazy body is the shortest fenced body, and nothing matches exactly when no fenced block starts there |
| Extraction.FirstFence | django-girls-offline.py:71 | the search returns a position where the pattern matches and no earlier one matches |
| Extraction.FenceSearchLeftmostShortest | django-girls-offline.py:71 | the fence search finds the leftmost fenced block with its shortest body, and nothing exactly when there is no fenced block |
| Extraction.WordEnd | django-girls-offline.py:74 | `\w+` runs to the first non-word character |
| Extraction.CallAtSound | django-girls-offline.py:74 | a call-pattern match is text of the shape `tutorial.\w+([^)]*)` at that position |
| Extraction.CallAtComplete | django-girls-offline.py:74 | every text of that shape at a position is what the pattern matches there |
| Extraction.FirstCall | django-girls-offline.py:74 | the call search returns a matching position with no match before it |
| Extraction.CallSearchLeftmost | django-girls-offline.py:74 | the call search finds the leftmost call text, and nothing exactly when the reply contains none |
| Extraction.ExtractCode | django-girls-offline.py:70-77 | the two searches in order; characterised by ExtractCodeSpec |
| Extraction.ExtractCodeSpec | django-girls-offline.py:70-77 | the extracted code is the leftmost shortest fenced body; only without any fenced block is it the leftmost call text; nothing is extracted exactly when there is neither |
| Extraction.ExtractFromFence | django-girls-offline.py:71-77 | with a fenced block present the code is its leftmost shortest body |
| Extraction.ExtractFromCall | django-girls-offline.py:72-77 | without a fenced block the code is the leftmost call text of the reply: no call text starts before it |
| Extraction.ExtractNothing | django-girls-offline.py:70-76 | nothing is extracted exactly when the reply has no fenced block and no call text |
| Extraction.FencedLineExtracts | django-girls-offline.py:71 | a reply that is one fenced line of code yields exactly that line |
| Offline.Literal | django-girls-offline.py:81 | an accepted literal is quoted by `'` or `"` at both ends with a body that needs no escapes and holds no NUL character |
| Offline.ParseRender | django-girls-offline.py:79-81 | writing an accepted call and reading it back gives the same call |
| Offline.LiteralArgumentShape | django-girls-offline.py:81 | an accepted argument means the code is the head, a quoted literal and `)` |
| Offline.ParseCall | django-girls-offline.py:79-81 | the accepted call shapes; characterised by ParseRender and ParseCallOnlyAcceptsCalls |
| Offline.ParseCallOnlyAcceptsCalls | django-girls-offline.py:79-81 | the dispatch accepts only the single-quoted, double-quoted and argument-less call spellings |
| Offline.NulArgumentRefused | django-girls-offline.py:79-97 | a `show` or `help` call whose literal holds a NUL character is not dispatched, so it takes the exception branch, as `eval` refuses such source text |
| Offline.Eval | django-girls-offline.py:79-88 | an accepted call run against the tutorial object; characterised by EvalAlwaysTruthy |
| Offline.EvalAlwaysTruthy | django-girls-offline.py:81-88 | every accepted call answers non-empty text, so the falsy-result branch is dead; only `show` changes the state and validity is kept |
| Offline.Step | django-girls-offline.py:51-106 | a turn that continues from a good session leaves a good one: system message first, at most ten entries, valid tutorial |
| Offline.Respond | django-girls-offline.py:64-106 | after the model answered, the loop always continues, and the session stays good; every display is taken to succeed |
| Offline.StartIsGood | django-girls-offline.py:44 | the session starts as the system message alone with a valid tutorial |
| Offline.Run | django-girls-offline.py:51-106 | the loop over a sequence of turns; characterised by RunKeepsGood and EndOfInputSpins |
| Offline.RunKeepsGood | django-girls-offline.py:44-106 | over any sequence of turns the history stays within ten entries and still begins with the system message |
| Offline.StepInputHandling | django-girls-offline.py:53-62 | a blank line changes and shows nothing; `/exit` and `/quit` in any case end the loop |
| Offline.EndOfInputIsSkipped | django-girls-offline.py:53-59 | the empty line `get_user_input` returns at end of input or Ctrl-C is skipped: the turn changes and shows nothing |
| Offline.EndOfInputSpins | django-girls-offline.py:51-59 | any number of turns that read end of input leave the session as it was, so the loop never ends that way |
| Offline.StepAsksModel | django-girls-offline.py:65-68 | a failed model request escapes the loop; an answer is interpreted |
| Offline.RespondRunsCall | django-girls-offline.py:79-88 | accepted code shows its result and stores only the user message and an acknowledgement naming the code |
| Offline.RespondRefusedCode | django-girls-offline.py:90-97 | refused code shows the exception notice and the `help` reply for it, and stores only the user message |
| Offline.RespondRawReply | django-girls-offline.py:98-101 | a reply without code is shown and stored verbatim |
| Offline.FirstTurnShowsTopic | django-girls-offline.py:37-106 | any line the loop accepts, answered with a fenced `show` of a content key, shows that topic, stores the system message, the stripped line and an acknowledgement, and moves the cursor there with `welcome` completed |
| Offline.FirstReplyShowsTopic | django-girls-offline.py:64-106 | the model's answer in that first turn has exactly that effect |
| Offline.FencedShowRuns | django-girls-offline.py:71-81 | a fenced `show` of a content key is extracted and parsed back to that call |
| Offline.ContentKeysNeedNoEscapes | tutorial_api.py:15-26 | every content key can be quoted as it is |
| Offline.HelloIsSaid | django-girls-offline.py:53-62 | `hello` is neither skipped nor a quit word |
| McpClient.StripJsonFence | django_girls_mcp.py:130 | an opening fence alone is cut from the front, a closing fence alone from the back, both when they do not overlap, and text with neither is unchanged; never longer than the input |
| McpClient.StripJsonFenceRoundTrip | django_girls_mcp.py:130 | a json-fenced payload comes back as the payload |
| McpClient.StripJsonFenceOverlap | django_girls_mcp.py:130 | in "```json\n```" the fences share a newline, so only the opening one is removed |
| McpClient.ToolName | django_girls_mcp.py:141 | the name chain; characterised by ToolNameIsOrdered and WelcomeDescriptor |
| McpClient.ToolParams | django_girls_mcp.py:142 | the arguments chain; characterised by ToolParamsIsOrdered and NestedParametersIgnored |
| McpClient.ToolNameIsOrdered | django_girls_mcp.py:141 | the name is the first truthy of `action`, `function.name`, `function_call.name`, else the last value tried; a failing lookup aborts |
| McpClient.ToolParamsIsOrdered | django_girls_mcp.py:142 | the arguments are the first truthy of `parameters`, `arguments`, `function_call.arguments`, `function.arguments`, else the last value tried |
| McpClient.NestedParametersIgnored | django_girls_mcp.py:142 | a nested `parameters` entry changes neither name nor arguments |
| McpClient.Execute | django_girls_mcp.py:36-63 | a tool runs exactly when its name is a registered string and its arguments are a mapping and it returns; an unknown name is a lookup failure |
| McpClient.ErrorText | django_girls_mcp.py:156-157 | the notice text of a failed descriptor: the `repr` of an unknown string name, the `repr` of other scalar names, the unhashable-type message for lists and dictionaries |
| McpClient.ReprRoundTrip | django_girls_mcp.py:156-157 | `repr` of a name starts and ends with the same quote, and its inside reads back as the name |
| McpClient.ReprQuoting | django_girls_mcp.py:156-157 | a plain printable name is shown between single quotes as it is; a name holding a single quote and no double quote is shown between double quotes |
| McpClient.Handle | django_girls_mcp.py:141-161 | one descriptor adds at most one history entry, which is a tool acknowledgement or the raw agent result, and keeps what was there |
| McpClient.RunDescriptors | django_girls_mcp.py:139-161 | the descriptors only append to the history, and each entry they add is a tool acknowledgement or the raw agent result |
| McpClient.RunDescriptorsAppend | django_girls_mcp.py:139-161 | the descriptors are processed front to back: a list runs as its first part and then the rest from there, and an escaping exception stops the rest |
| McpClient.AsList | django_girls_mcp.py:136-137 | `type(...) is not list` wrapping; characterised by BareDescriptorIsSingleton |
| McpClient.BareDescriptorIsSingleton | django_girls_mcp.py:136-139 | a bare descriptor is handled exactly as a one-element list holding it, and a list runs its first descriptor before the rest |
| McpClient.Respond | django_girls_mcp.py:127-170 | after the agent answered, the turn continues or crashes on an escaping parse or lookup error; on continuing the history holds at most ten entries and keeps its first; every display is taken to succeed |
| McpClient.Step | django_girls_mcp.py:109-170 | one turn of the tool loop; characterised by StepKeepsHistoryBounded, FirstMessageIsKept and EndOfInputIsSkipped |
| McpClient.EndOfInputIsSkipped | django_girls_mcp.py:112-118 | the empty line `get_user_input` returns at end of input or Ctrl-C is skipped without a change |
| McpClient.StepKeepsHistoryBounded | django_girls_mcp.py:109-170 | every turn keeps the history within ten entries and keeps its first entry |
| McpClient.FirstMessageIsKept | django_girls_mcp.py:124-170 | the first accepted user message becomes the entry that trimming keeps |
| McpClient.RespondEmptyPayload | django_girls_mcp.py:130-165 | an empty payload is shown raw and the agent result stored once |
| McpClient.RespondUnparsable | django_girls_mcp.py:134 | text that is not JSON escapes the loop |
| McpClient.UnknownToolContinues | django_girls_mcp.py:144-157 | a registry miss is reported as a notice and the remaining descriptors still run |
| McpClient.ToolResultNotStored | django_girls_mcp.py:147-154 | a non-empty tool result is shown, and only the acknowledgement naming the tool is stored |
| McpClient.NamelessDescriptorStoresRaw | django_girls_mcp.py:158-161 | a descriptor without a name shows the raw answer and stores the agent result |
| McpClient.WelcomeDescriptor | django_girls_mcp.py:141-142 | `{"action": "welcome_tutorial", "parameters": {}}` names `welcome_tutorial` with empty arguments |
| McpServer.FirstKeyIn | django_girls_mcp_server.py:311-313 | the first key in dictionary order that occurs in the text, and none when no key occurs |
| McpServer.ExplainConcept | django_girls_mcp_server.py:135-326 | `explain_programming_concept`; characterised by ExplainConceptFirstKey, ExplainConceptFallback and ExplainConceptCaseInsensitive |
| McpServer.ExplainConceptFirstKey | django_girls_mcp_server.py:310-313 | a key's explanation is returned exactly when it occurs in the lower-cased input and no earlier key does |
| McpServer.ExplainConceptFallback | django_girls_mcp_server.py:310-326 | the concept listing is returned exactly when no key occurs |
| McpServer.ExplanationsDistinct | django_girls_mcp_server.py:138-326 | the six explanations and the listing are pairwise different |
| McpServer.ExplainConceptCaseInsensitive | django_girls_mcp_server.py:310 | matching ignores letter case |
| McpServer.StringsInAList | django_girls_mcp_server.py:311-313 | "strings in a list" gets the `list` explanation: key order, not position in the input, decides |
| McpServer.VerifyEnvironment | django_girls_mcp_server.py:390-444 | `verify_environment`; characterised by ProbeOrder, VenvAndPipChecks and ReportHasOneEntryPerCheck |
| McpServer.ProbeOrder | django_girls_mcp_server.py:400-417 | `python` is probed exactly when `python3` failed, `pip` always last; the version is the stripped output of the probe that succeeded |
| McpServer.VenvAndPipChecks | django_girls_mcp_server.py:412-417 | the environment check holds exactly when `VIRTUAL_ENV` is set, even to the empty string; the pip check depends only on the pip probe |
| McpServer.ReportHasOneEntryPerCheck | django_girls_mcp_server.py:419-444 | each check contributes exactly one line and there is one closing; the all-good closing appears exactly when all three checks pass |
| Display.PanelWidth | ui_rich.py:66-93 | full width up to 60 columns or when the lookup fails; otherwise a width from 54 to 90 that is narrower than the terminal, and 90 above 100 columns |
| Display.TruncatedNinetyPercent | ui_rich.py:85 | `int(w * 0.9)` is the largest integer not above nine tenths of the width |
| Display.PanelWidthMonotone | ui_rich.py:66-93 | a wider terminal never gets a narrower panel |
| Display.TierOf | ui_rich.py:131-174 | the styling tiers have inclusive upper bounds 30, 50 and 80 |
| Display.PanelFor | ui_rich.py:124-226 | a panel is printed exactly when the size lookup succeeds, with the computed width, expanding exactly up to 50 columns |
| Display.SpeakersShareLayout | ui_rich.py:124-226 | agent and system panels share padding, width and expansion and differ in title and border |
| Display.StylingMonotone | ui_rich.py:131-174 | a wider terminal never gets less padding, a shorter title or expansion where a narrower one had none |
| Display.TierBoundaries | ui_rich.py:131-174 | 30, 50 and 80 columns still get the narrower styling, one more column the wider |
| Display.Prompt | ui_rich.py:111-119 | the prompt is `>` up to 30 columns, `You>` up to 50, `You` above |
| Display.PromptTiers | ui_rich.py:111-119 | `>` goes with the ultra-narrow panels and `You>` with the narrow ones, and the medium and wide panels share `You`; the compact prompt is longer than the full one |
| Display.ReadInput | ui_rich.py:104-122 | a failed size lookup escapes; end of input and Ctrl-C become the empty line; typed text is returned as typed; with Offline.EndOfInputIsSkipped, the empty line is skipped by the loops |
| Display.PromptAndPanelTiersDiffer | ui_rich.py:104-174 | at 80 columns the prompt is the full one while the panel is the medium one |
| LocalChat.Readable | example_local.py:49-51 | the chunks read before the first one without choices all have a delta |
| LocalChat.JoinedAppend | example_local.py:48-52 | concatenating the fragments distributes over splitting the stream |
| LocalChat.StreamingResponse | example_local.py:28-60 | every fragment read is echoed in order; the reply is the stripped concatenation when the stream completes, and empty when anything raised; the loop computes `Reply`, the function the chat turn uses |
| LocalChat.Reply | example_local.py:28-60 | the reply as a function; never begins or ends with white space; equal to what StreamingResponse returns |
| LocalChat.BlankReplyIsEmpty | example_local.py:55 | a reply of white space only counts as no reply |
| LocalChat.Opening | example_local.py:78-82 | the history starts with the system prompt exactly when a non-empty file name is given |
| LocalChat.Turn | example_local.py:88-117 | end of input escapes; a quit word ends the chat; otherwise the history grows by at most two entries and keeps its prefix |
| LocalChat.Classify | example_local.py:90-99 | a line that strips and lower-cases to a quit word ends the chat, checked before the blank check; a blank line is skipped; anything else is sent stripped |
| LocalChat.QuitIgnoresCase | example_local.py:93 | `Q` ends the chat |
| LocalChat.BlankLineSkipped | example_local.py:97-99 | a blank line changes nothing and asks the server nothing |
| LocalChat.UserMessageSentFirst | example_local.py:101-115 | the user message is stored before the request, and the answer is stored only when non-empty |
| LocalChat.OpeningWellFormed | example_local.py:78-82 | the opening history has the well-formed shape |
| LocalChat.TurnKeepsWellFormed | example_local.py:101-115 | a turn keeps the shape: system message only first, every answer right after a user message, no empty user or answer content |
| LocalChat.Chat | example_local.py:88-117 | the loop over a sequence of lines; characterised by ChatOnlyAppends |
| LocalChat.ChatOnlyAppends | example_local.py:87-117 | over any sequence of lines the history is never trimmed, keeps its prefix and keeps the shape |

## Left out

- I/O, the model servers, the MCP transport and session, and Rich rendering are not modelled. Replies, parsed JSON, tool results, shell probes, the environment and the terminal width are parameters. Panels are values describing what would be printed.
- `eval` in `django-girls-offline.py` is replaced by a closed dispatch over `tutorial.show('x')`, `tutorial.next_step()` and `tutorial.help('x')` with either quote character, plus `tutorial.help()`. Any other extracted text, including valid Python with other spacing or escapes, takes the exception branch. Every text the dispatch accepts is one `eval` also accepts: a literal holding a NUL character is refused by both. The exception's text is a parameter.
- Text.ToLower: lower-cases ASCII letters only, not the full Unicode mapping of Python's `str.lower`.
- Text.Strip: strips ASCII white space only (space, `\t`–`\r` and the four separators 28–31), not every Unicode space.
- Extraction.IsWordChar: ASCII `\w` only, not Unicode word characters.
- McpClient.StripJsonFence: the `$` of the pattern also matches before one final newline in Python. The model removes the closing fence only at the very end.
- McpClient.ErrorText: `repr` keeps characters above U+007E as they are, while Python escapes the non-printable ones among them. The message of the `TypeError` for non-mapping arguments omits the tool's name and the argument's type. The wording of the unhashable-type message varies with the Python version.
- JSON numbers are integers, and `json.loads` is a parameter.
- Tutorial prose, code examples, concept explanations, the concept listing and the system prompts are opaque tokens. The fixed `help` tips, the listing and the next-step messages are spelled out.
- The other tools of `django_girls_mcp_server.py` return constant text and are not modelled.
- `run_shell_command` is called but not defined in `django_girls_mcp_server.py`, so its results are parameters.
- `dj_server`, from which `django_girls_mcp.py` imports its tools, is not part of this model. The tools are the `run` parameter.
- The agent construction, `load_mcp_tools`, the `breakpoint()` call in `django_girls_mcp.py` and `setup_local_model` in `example_local.py` are set-up with no logic to model.
- `visuals.py` (a welcome banner) is not part of this model.
- Reading the system prompt file in `example_local.py` is left out. Its contents are a parameter, and a failure to open it is not modelled.
- The printed error message of `get_streaming_response` and the `print` calls are not modelled. Only the echoed fragments are.
- Display: `_refresh_console_size`, `start`, `show_loading` and `hide_loading` only touch console internals or do nothing. The two size lookups in `add_*_markdown` are taken to see the same width.
- Offline.Respond: every display in the turn is taken to succeed, so the result always continues. `add_agent_markdown` and `add_system_markdown` can raise from their size lookup. Inside the `try` (django-girls-offline.py:85) that failure would take the error branch. Outside any `try` it would end the program: the error notice (django-girls-offline.py:91) and the raw reply (django-girls-offline.py:100). Display.PanelFor models that failure on its own.
- McpClient.Respond: every display in the turn is taken to succeed, so only an escaping parse or lookup error ends the loop. Inside the `try` (django_girls_mcp.py:151) a failed display would take the error branch. Outside any `try` it would end the program: the error notice (django_girls_mcp.py:157) and the raw reply (django_girls_mcp.py:160 and 164). Display.PanelFor models that failure on its own.
- Concurrency (`asyncio`) is not modelled. Each turn is a function of its inputs.

=== FILE: chat.dfy ===
/** What the two tutorial loops share: the entries of a conversation history,
    the panels shown to the learner, the history trimming rule and the way a
    typed line is classified before anything is sent to the model. */
module Chat {
  import opened Text

  /** One history entry. `System`, `Human` and `AI` are the LangChain message
      kinds; `AgentResult` is the whole result object of the tool-calling agent, which
      that loop appends as it is, represented by the content of its last message. */
  datatype Message =
    | System(content: string)
    | Human(content: string)
    | AI(content: string)
    | AgentResult(lastContent: string)

  /** A rendered block: assistant markdown or a system notice. */
  datatype Panel = Agent(md: string) | Notice(md: string)

  /** The length above which a turn's history is cut down. */
  const Ceiling := 10
  /** How many of the newest entries survive a cut. */
  const Kept := 8

  /** `if len(h) > 10: h = [h[0]] + h[-8:]`. The result is never longer than
      the ceiling, keeps the first entry, keeps the newest entries in order and
      otherwise only drops entries from the middle. */
  function Trim<T>(h: seq<T>): (r: seq<T>)
    ensures |r| <= Ceiling || r == h
    ensures |h| <= Ceiling ==> r == h
    ensures |h| > Ceiling ==> |r| == Kept + 1
    ensures |r| > 0 <==> |h| > 0
    ensures |h| > 0 ==> r[0] == h[0]
    ensures |h| > 0 ==> r[|r| - 1] == h[|h| - 1]
    ensures 0 < |r| ==> r[1..] == h[|h| - (|r| - 1)..]
  {
    if |h| > Ceiling then [h[0]] + h[|h| - Kept..] else h
  }

  /** How one typed line is classified by the tutorial loops. */
  datatype LineAction = Skip | Quit | Say(text: string)

  /** Input handling of the two tutorial loops: the line is stripped, an
      empty line is skipped and `/exit` or `/quit` in any letter case ends
      the loop; anything else is sent, stripped. */
  function TutorInput(line: string): (a: LineAction)
    ensures a == Skip <==> AllSpace(line)
    ensures a == Quit <==> !AllSpace(line) && ToLower(Strip(line)) in {"/exit", "/quit"}
    ensures a.Say? ==> a.text == Strip(line) && a.text != "" && !IsSpace(a.text[0])
  {
    var u := Strip(line);
    if u == "" then Skip
    else if ToLower(u) in {"/exit", "/quit"} then Quit
    else Say(u)
  }
}

=== FILE: display.dfy ===
/** The Rich terminal front end (`ui_rich.py`): how the width of the
    terminal chooses the panel width, the panel styling and the input
    prompt. Drawing itself is left to Rich and not modelled. A terminal
    width of `None` stands for a size lookup that raised. */
module Display {
  import opened Wrappers

  /** `_get_panel_width`: the full width (`None`) up to 60 columns, 90 % of
      the width (truncated, never below 40) up to 100 columns, then 90
      columns; a failed size lookup is caught and also gives `None`. */
  function PanelWidth(terminal: Option<int>): (r: Option<int>)
    ensures r.Some? <==> terminal.Some? && terminal.value > 60
    ensures r.Some? ==> 54 <= r.value <= 90 && r.value < terminal.value
    ensures r.Some? && terminal.value > 100 ==> r.value == 90
  {
    match terminal
    case None => None
    case Some(w) =>
      if w <= 40 then None
      else if w <= 60 then None
      else if w <= 100 then Some(Max(40, TruncatedNinetyPercent(w)))
      else Some(90)
  }

  function Max(a: int, b: int): int { if a < b then b else a }

  /** `int(w * 0.9)` for a non-negative width: the float product truncated
      toward zero. For the widths 61 to 100 that reach it, the float
      product is close enough to 9w/10 that the truncation equals the
      integer quotient. */
  function TruncatedNinetyPercent(w: nat): (r: nat)
    ensures 10 * r <= 9 * w < 10 * r + 10
  {
    (9 * w) / 10
  }

  /** Wider terminals never get a narrower panel. */
  lemma PanelWidthMonotone(w1: int, w2: int)
    requires 60 < w1 <= w2
    ensures PanelWidth(Some(w1)).value <= PanelWidth(Some(w2)).value
  {
  }

  // ---------------------------------------------------------------------
  // Panels

  /** Who is speaking: the agent (`add_agent_markdown`) or the program
      (`add_system_markdown`). */
  datatype Speaker = Agent | System

  /** The four styling tiers, chosen by terminal width with inclusive
      upper bounds 30, 50 and 80. */
  datatype Tier = UltraNarrow | Narrow | Medium | Wide

  function TierOf(w: int): (t: Tier)
    ensures t == UltraNarrow <==> w <= 30
    ensures t == Narrow <==> 30 < w <= 50
    ensures t == Medium <==> 50 < w <= 80
    ensures t == Wide <==> 80 < w
  {
    if w <= 30 then UltraNarrow
    else if w <= 50 then Narrow
    else if w <= 80 then Medium
    else Wide
  }

  /** The arguments passed to Rich's `Panel` apart from the markdown body
      and the left title alignment, which never vary. */
  datatype PanelStyle = PanelStyle(
    title: string,
    border: string,
    padding: (nat, nat),
    width: Option<int>,
    expand: bool)

  function Title(who: Speaker, t: Tier): string {
    match who
    case Agent =>
      (match t
       case UltraNarrow => "\U{1F916}"
       case Narrow => "\U{1F916}"
       case Medium => "\U{1F916} AI"
       case Wide => "\U{1F916} Assistant")
    case System =>
      (match t
       case UltraNarrow => "ℹ️"
       case Narrow => "ℹ️"
       case Medium => "ℹ️ Sys"
       case Wide => "ℹ️ System")
  }

  function Border(who: Speaker): string {
    match who
    case Agent => "orange1"
    case System => "blue"
  }

  function Padding(t: Tier): (nat, nat) {
    match t
    case UltraNarrow => (0, 0)
    case Narrow => (0, 1)
    case Medium => (0, 1)
    case Wide => (1, 2)
  }

  /** The panel `add_agent_markdown` / `add_system_markdown` prints for a
      terminal of the given width. The second size lookup in those methods
      is not guarded, so a failed lookup escapes as an error (`None`). */
  function PanelFor(who: Speaker, terminal: Option<int>): (r: Option<PanelStyle>)
    ensures r.Some? <==> terminal.Some?
    ensures r.Some? ==> r.value.width == PanelWidth(terminal)
    ensures r.Some? ==> (r.value.expand <==> terminal.value <= 50)
  {
    match terminal
    case None => None
    case Some(w) =>
      var t := TierOf(w);
      Some(PanelStyle(Title(who, t), Border(who), Padding(t), PanelWidth(terminal), t == UltraNarrow || t == Narrow))
  }

  /** Agent and system panels share the layout (padding, width, expansion)
      at every width and differ only in title and border colour. */
  lemma SpeakersShareLayout(terminal: Option<int>)
    ensures var a, s := PanelFor(Agent, terminal), PanelFor(System, terminal);
      a.Some? == s.Some? &&
      (a.Some? ==>
        a.value.padding == s.value.padding && a.value.width == s.value.width &&
        a.value.expand == s.value.expand &&
        a.value.border != s.value.border && a.value.title != s.value.title)
  {
    if terminal.Some? {
      var t := TierOf(terminal.value);
      assert Title(Agent, t)[0] != Title(System, t)[0];
    }
  }

  /** A wider terminal never gets less padding or a shorter title. */
  lemma StylingMonotone(who: Speaker, w1: int, w2: int)
    requires w1 <= w2
    ensures var p, q := PanelFor(who, Some(w1)).value, PanelFor(who, Some(w2)).value;
      p.padding.0 <= q.padding.0 && p.padding.1 <= q.padding.1 &&
      |p.title| <= |q.title| &&
      (q.expand ==> p.expand)
  {
  }

  /** The tier boundaries are inclusive: 30, 50 and 80 columns still get
      the narrower styling, one more column the wider one. */
  lemma TierBoundaries()
    ensures PanelFor(Agent, Some(30)).value.padding == (0, 0)
    ensures PanelFor(Agent, Some(31)).value.padding == (0, 1)
    ensures PanelFor(Agent, Some(50)).value.expand && !PanelFor(Agent, Some(51)).value.expand
    ensures PanelFor(Agent, Some(80)).value.title == "\U{1F916} AI"
    ensures PanelFor(Agent, Some(81)).value.title == "\U{1F916} Assistant"
    ensures PanelFor(System, Some(81)).value.padding == (1, 2)
  {
  }

  // ---------------------------------------------------------------------
  // Input

  /** What Rich's `Prompt.ask` produced. */
  datatype Answer = Typed(text: string) | EndOfInput | Interrupted

  /** The result of `get_user_input`: the prompt shown and the line
      returned, or an error that escaped because the size lookup failed. */
  datatype Input = Input(prompt: string, line: string) | SizeFailed

  function Prompt(w: int): (r: string)
    ensures w <= 30 ==> r == ">"
    ensures 30 < w <= 50 ==> r == "You>"
    ensures 50 < w ==> r == "You"
  {
    if w <= 30 then ">" else if w <= 50 then "You>" else "You"
  }

  /** The prompt tiers against the panel tiers: `>` goes with the
      ultra-narrow panels and `You>` with the narrow ones, and the medium and
      wide panels share `You`. The compact prompt `You>` is one character
      longer than the full prompt `You`. */
  lemma PromptTiers(w: int)
    ensures Prompt(w) == ">" <==> TierOf(w) == UltraNarrow
    ensures Prompt(w) == "You>" <==> TierOf(w) == Narrow
    ensures Prompt(w) == "You" <==> TierOf(w) == Medium || TierOf(w) == Wide
    ensures |Prompt(40)| > |Prompt(60)|
  {
  }

  /** `get_user_input`: end of input and Ctrl-C both become the empty line,
      which the agent loop then skips. */
  function ReadInput(terminal: Option<int>, answer: Answer): (r: Input)
    ensures r.SizeFailed? <==> terminal.None?
    ensures r.Input? && !answer.Typed? ==> r.line == ""
    ensures r.Input? && answer.Typed? ==> r.line == answer.text
  {
    match terminal
    case None => SizeFailed
    case Some(w) =>
      var line := match answer
        case Typed(text) => text
        case EndOfInput => ""
        case Interrupted => "";
      Input(Prompt(w), line)
  }

  /** The prompt tiers (30 and 50 columns) are not the panel tiers: an
      80-column terminal gets the full prompt but the medium panel. */
  lemma PromptAndPanelTiersDiffer()
    ensures ReadInput(Some(80), EndOfInput) == Input("You", "")
    ensures PanelFor(Agent, Some(80)).value.title == "\U{1F916} AI"
  {
  }
}

=== FILE: extraction.dfy ===
/** How the offline assistant finds the code to run in a model reply: first
    `re.search(r'```python\n(.*?)\n```', reply, re.DOTALL)`, and if that finds
    nothing, `re.search(r'(tutorial\.\w+\([^)]*\))', reply)`; the code is
    group 1 of whichever matched. Each search is modelled position by position
    and proved equal to a description of the match that does not mention the
    search: the leftmost start, and for the fence the shortest body. */
module Extraction {
  import opened Wrappers
  import opened Text

  const FenceOpen := "```python\n"
  const FenceClose := "\n```"
  const CallHead := "tutorial."

  /** Where a search matched and the text of its group 1. */
  datatype Match = Match(start: nat, group: string)

  // ---------------------------------------------------------------------
  // The fenced block

  /** A python fence with body `body` starts at index `i` of `s`. */
  predicate FencedAt(s: string, i: int, body: string) {
    OccursAt(s, i, FenceOpen + body + FenceClose)
  }

  /** A fenced block is an opening fence, the body, and a closing fence right after it. */
  lemma FencedAtParts(s: string, i: int, y: string)
    ensures FencedAt(s, i, y) <==>
      && OccursAt(s, i, FenceOpen)
      && OccursAt(s, i + |FenceOpen| + |y|, FenceClose)
      && s[i + |FenceOpen|..i + |FenceOpen| + |y|] == y
  {
    OccursConcat(s, i, FenceOpen, y, FenceClose);
  }

  /** `a + b + c` occurs at `i` exactly when its three parts occur one after another. */
  lemma OccursConcat(s: string, i: int, a: string, b: string, c: string)
    ensures OccursAt(s, i, a + b + c) <==>
      && OccursAt(s, i, a)
      && OccursAt(s, i + |a| + |b|, c)
      && s[i + |a|..i + |a| + |b|] == b
  {
    var t := a + b + c;
    var j := i + |a|;
    var k := j + |b|;
    if OccursAt(s, i, t) {
      forall q | 0 <= q < |t| ensures s[i + q] == t[q] {
        assert s[i + q] == s[i..i + |t|][q];
      }
      forall q | 0 <= q < |a| ensures s[i..j][q] == a[q] {
        assert t[q] == a[q];
      }
      forall q | 0 <= q < |b| ensures s[j..k][q] == b[q] {
        assert t[|a| + q] == b[q];
      }
      forall q | 0 <= q < |c| ensures s[k..k + |c|][q] == c[q] {
        assert t[|a| + |b| + q] == c[q];
      }
    }
    if OccursAt(s, i, a) && OccursAt(s, k, c) && 0 <= j <= k && s[j..k] == b {
      assert s[i..i + |t|] == s[i..j] + s[j..k] + s[k..k + |c|];
    }
  }

  /** The match of the fence pattern when the search tries index `i`: the
      lazy body stops at the first closing fence after the opening one. */
  function FenceAt(s: string, i: nat): Option<string> {
    if !OccursAt(s, i, FenceOpen) then None
    else match FindFrom(s, i + |FenceOpen|, FenceClose)
      case None => None
      case Some(j) => Some(s[i + |FenceOpen|..j])
  }

  /** What the search finds at `i` is a fenced block starting there. */
  lemma FenceAtFound(s: string, i: nat)
    requires FenceAt(s, i).Some?
    ensures FencedAt(s, i, FenceAt(s, i).value)
  {
    FencedAtParts(s, i, FenceAt(s, i).value);
  }

  /** Any fenced block starting at `i` is found there, with a body no longer than its own. */
  lemma FencedFound(s: string, i: nat, y: string)
    requires FencedAt(s, i, y)
    ensures FenceAt(s, i).Some? && |FenceAt(s, i).value| <= |y|
  {
    FencedAtParts(s, i, y);
    var c := i + |FenceOpen| + |y|;
    assert OccursAt(s, c, FenceClose);
    var j := FindFrom(s, i + |FenceOpen|, FenceClose);
    assert j.Some? && j.value <= c;
  }

  /** Trying index `i` finds the shortest fenced body starting there, and
      finds nothing exactly when no fenced block starts there. */
  lemma FenceAtShortest(s: string, i: nat)
    ensures FenceAt(s, i).Some? ==> FencedAt(s, i, FenceAt(s, i).value)
    ensures FenceAt(s, i).Some? ==> forall y | |y| < |FenceAt(s, i).value| :: !FencedAt(s, i, y)
    ensures FenceAt(s, i).None? ==> forall y :: !FencedAt(s, i, y)
  {
    if FenceAt(s, i).Some? {
      FenceAtFound(s, i);
    }
    forall y | FencedAt(s, i, y) ensures FenceAt(s, i).Some? && |FenceAt(s, i).value| <= |y| {
      FencedFound(s, i, y);
    }
  }

  /** `re.search` for the fence from index `from` on. */
  function FirstFence(s: string, from: nat): (r: Option<Match>)
    decreases |s| + 1 - from
    ensures r.Some? ==> from <= r.value.start && FenceAt(s, r.value.start) == Some(r.value.group)
    ensures r.Some? ==> forall k | from <= k < r.value.start :: FenceAt(s, k).None?
    ensures r.None? ==> forall k: nat | from <= k :: FenceAt(s, k).None?
  {
    if from > |s| then None
    else match FenceAt(s, from)
      case Some(b) => Some(Match(from, b))
      case None => FirstFence(s, from + 1)
  }

  /** The fence search finds the leftmost fenced block and, there, the
      shortest body; it finds nothing exactly when there is no fenced block. */
  lemma FenceSearchLeftmostShortest(s: string)
    ensures FirstFence(s, 0).Some? ==>
      var m := FirstFence(s, 0).value;
      && FencedAt(s, m.start, m.group)
      && (forall y | |y| < |m.group| :: !FencedAt(s, m.start, y))
      && (forall k: nat, y | k < m.start :: !FencedAt(s, k, y))
    ensures FirstFence(s, 0).None? ==> forall k: nat, y :: !FencedAt(s, k, y)
  {
    if FirstFence(s, 0).Some? {
      FenceAtShortest(s, FirstFence(s, 0).value.start);
    }
    forall k: nat, y | FencedAt(s, k, y) ensures FenceAt(s, k).Some? {
      FencedFound(s, k, y);
    }
  }

  // ---------------------------------------------------------------------
  // The bare call

  /** ASCII `\w`. */
  predicate IsWordChar(c: char) {
    ('a' <= c <= 'z') || ('A' <= c <= 'Z') || ('0' <= c <= '9') || c == '_'
  }

  /** Index of the '(' of a call text: word characters before it, no ')' after it. */
  predicate ParenAt(t: string, k: int) {
    && 10 <= k < |t| - 1
    && t[k] == '('
    && (forall q | 9 <= q < k :: IsWordChar(t[q]))
    && (forall q | k < q < |t| - 1 :: t[q] != ')')
  }

  /** `t` is exactly the language of `tutorial\.\w+\([^)]*\)`. */
  predicate IsCallText(t: string) {
    && |t| >= 12
    && t[..9] == CallHead
    && t[|t| - 1] == ')'
    && exists k | 10 <= k < |t| - 1 :: ParenAt(t, k)
  }

  /** End of the greedy run of word characters starting at `p`. */
  function WordEnd(s: string, p: nat): (e: nat)
    requires p <= |s|
    decreases |s| - p
    ensures p <= e <= |s|
    ensures forall q | p <= q < e :: IsWordChar(s[q])
    ensures e == |s| || !IsWordChar(s[e])
  {
    if p < |s| && IsWordChar(s[p]) then WordEnd(s, p + 1) else p
  }

  /** The match of the call pattern when the search tries index `i`. */
  function CallAt(s: string, i: nat): Option<string> {
    if !OccursAt(s, i, CallHead) then None
    else
      var e := WordEnd(s, i + |CallHead|);
      if e == i + |CallHead| || e == |s| || s[e] != '(' then None
      else match FindFrom(s, e + 1, ")")
        case None => None
        case Some(m) => Some(s[i..m + 1])
  }

  /** Whatever the call pattern matches at `i` is a call text starting at `i`. */
  lemma CallAtSound(s: string, i: nat)
    requires CallAt(s, i).Some?
    ensures IsCallText(CallAt(s, i).value) && OccursAt(s, i, CallAt(s, i).value)
  {
    var e := WordEnd(s, i + |CallHead|);
    var m := FindFrom(s, e + 1, ")").value;
    var t := s[i..m + 1];
    assert t[..9] == s[i..i + 9];
    assert ParenAt(t, e - i) by {
      forall q | 9 <= q < e - i ensures IsWordChar(t[q]) {
        assert t[q] == s[i + q];
      }
      forall q | e - i < q < |t| - 1 ensures t[q] != ')' {
        assert t[q] == s[i + q];
        assert !OccursAt(s, i + q, ")");
      }
    }
    assert s[m..m + 1] == [s[m]];
  }

  /** A call text starting at `i` is what the call pattern matches at `i`. */
  lemma CallAtComplete(s: string, i: nat, n: nat)
    requires i <= n <= |s| && IsCallText(s[i..n])
    ensures CallAt(s, i) == Some(s[i..n])
  {
    var t := s[i..n];
    assert |t| == n - i;
    var k :| 10 <= k < |t| - 1 && ParenAt(t, k);
    assert s[i..i + 9] == t[..9];
    var e := WordEnd(s, i + |CallHead|);
    forall q | i + 9 <= q < i + k ensures IsWordChar(s[q]) {
      assert s[q] == t[q - i];
    }
    assert s[i + k] == t[k] == '(';
    assert e == i + k;
    assert s[n - 1..n] == [t[|t| - 1]] == ")";
    forall q | e + 1 <= q < n - 1 ensures !OccursAt(s, q, ")") {
      assert s[q] == t[q - i];
      assert s[q..q + 1] == [s[q]];
    }
    assert OccursAt(s, n - 1, ")");
    var found := FindFrom(s, e + 1, ")");
    assert found == Some(n - 1);
  }

  /** `re.search` for the bare call from index `from` on. */
  function FirstCall(s: string, from: nat): (r: Option<Match>)
    decreases |s| + 1 - from
    ensures r.Some? ==> from <= r.value.start && CallAt(s, r.value.start) == Some(r.value.group)
    ensures r.Some? ==> forall k | from <= k < r.value.start :: CallAt(s, k).None?
    ensures r.None? ==> forall k: nat | from <= k :: CallAt(s, k).None?
  {
    if from > |s| then None
    else match CallAt(s, from)
      case Some(t) => Some(Match(from, t))
      case None => FirstCall(s, from + 1)
  }

  /** The call search finds the leftmost call text, and finds nothing exactly
      when the reply contains no call text at all. */
  lemma CallSearchLeftmost(s: string)
    ensures FirstCall(s, 0).Some? ==>
      var m := FirstCall(s, 0).value;
      && IsCallText(m.group) && OccursAt(s, m.start, m.group)
      && (forall k, n | 0 <= k < m.start && k <= n <= |s| :: !IsCallText(s[k..n]))
    ensures FirstCall(s, 0).None? ==> forall k, n | 0 <= k <= n <= |s| :: !IsCallText(s[k..n])
  {
    if FirstCall(s, 0).Some? {
      CallAtSound(s, FirstCall(s, 0).value.start);
    }
    forall k, n | 0 <= k <= n <= |s| && IsCallText(s[k..n]) ensures CallAt(s, k).Some? {
      CallAtComplete(s, k, n);
    }
  }

  // ---------------------------------------------------------------------
  // Both searches

  /** `code` is a call text at `i`, and no call text starts before `i`. */
  predicate LeftmostCallAt(s: string, i: nat, code: string) {
    && IsCallText(code) && OccursAt(s, i, code)
    && forall k, n | 0 <= k < i && k <= n <= |s| :: !IsCallText(s[k..n])
  }

  /** The code the offline loop would hand to `eval`, if any. */
  function ExtractCode(reply: string): Option<string> {
    match FirstFence(reply, 0)
    case Some(m) => Some(m.group)
    case None =>
      match FirstCall(reply, 0)
      case Some(m) => Some(m.group)
      case None => None
  }

  /** The extracted code is the shortest body of the leftmost fenced block;
      only when the reply has no fenced block is it the leftmost call text;
      nothing is extracted exactly when the reply has neither. */
  lemma ExtractCodeSpec(reply: string)
    ensures ExtractCode(reply).Some? ==>
      var code := ExtractCode(reply).value;
      || (exists i: nat :: FencedAt(reply, i, code)
            && (forall y | |y| < |code| :: !FencedAt(reply, i, y))
            && (forall k: nat, y | k < i :: !FencedAt(reply, k, y)))
      || ((forall k: nat, y :: !FencedAt(reply, k, y))
            && exists i: nat :: LeftmostCallAt(reply, i, code))
    ensures ExtractCode(reply).None? <==>
      (forall k: nat, y :: !FencedAt(reply, k, y))
      && (forall k, n | 0 <= k <= n <= |reply| :: !IsCallText(reply[k..n]))
  {
    if FirstFence(reply, 0).Some? {
      ExtractFromFence(reply);
    } else if FirstCall(reply, 0).Some? {
      ExtractFromCall(reply);
    }
    ExtractNothing(reply);
  }

  /** With a fenced block present the code is the shortest body of the leftmost one. */
  lemma ExtractFromFence(reply: string)
    requires FirstFence(reply, 0).Some?
    ensures ExtractCode(reply).Some?
    ensures var code := ExtractCode(reply).value;
      exists i: nat :: FencedAt(reply, i, code)
        && (forall y | |y| < |code| :: !FencedAt(reply, i, y))
        && (forall k: nat, y | k < i :: !FencedAt(reply, k, y))
  {
    FenceSearchLeftmostShortest(reply);
    var m := FirstFence(reply, 0).value;
    assert FencedAt(reply, m.start, m.group);
  }

  /** Without a fenced block the code is the leftmost call text. */
  lemma ExtractFromCall(reply: string)
    requires FirstFence(reply, 0).None? && FirstCall(reply, 0).Some?
    ensures ExtractCode(reply).Some?
    ensures var code := ExtractCode(reply).value;
      (forall k: nat, y :: !FencedAt(reply, k, y)) && exists i: nat :: LeftmostCallAt(reply, i, code)
  {
    FenceSearchLeftmostShortest(reply);
    CallSearchLeftmost(reply);
    var m := FirstCall(reply, 0).value;
    assert LeftmostCallAt(reply, m.start, m.group);
  }

  lemma ExtractNothing(reply: string)
    ensures ExtractCode(reply).None? <==>
      (forall k: nat, y :: !FencedAt(reply, k, y))
      && (forall k, n | 0 <= k <= n <= |reply| :: !IsCallText(reply[k..n]))
  {
    if FirstFence(reply, 0).Some? {
      FenceSearchLeftmostShortest(reply);
      var m := FirstFence(reply, 0).value;
      assert FencedAt(reply, m.start, m.group);
    } else if FirstCall(reply, 0).Some? {
      CallSearchLeftmost(reply);
      var m := FirstCall(reply, 0).value;
      assert OccursAt(reply, m.start, m.group);
      assert IsCallText(reply[m.start..m.start + |m.group|]);
    } else {
      FenceSearchLeftmostShortest(reply);
      CallSearchLeftmost(reply);
    }
  }

  /** A reply that is just one fenced line of code yields that line. */
  lemma FencedLineExtracts(code: string)
    requires '\n' !in code
    ensures ExtractCode(FenceOpen + code + FenceClose) == Some(code)
  {
    var s := FenceOpen + code + FenceClose;
    var j := |FenceOpen| + |code|;
    assert s[..|FenceOpen|] == FenceOpen;
    assert s[|FenceOpen|..j] == code;
    assert s[j..] == FenceClose;
    assert OccursAt(s, j, FenceClose);
    forall k | |FenceOpen| <= k < j ensures !OccursAt(s, k, FenceClose) {
      assert s[k] == code[k - |FenceOpen|];
      assert s[k..k + |FenceClose|][0] == s[k];
    }
    assert FindFrom(s, |FenceOpen|, FenceClose) == Some(j);
  }
}

=== FILE: local_chat.dfy ===
/** The stand-alone local chat (`example_local.py`): a streamed reply is
    assembled from its fragments, and a plain loop keeps the whole chat
    history, starting with an optional system prompt. The model server is
    a parameter: a function from the history sent to the stream it
    answers with. */
module LocalChat {
  import opened Wrappers
  import opened Text

  // ---------------------------------------------------------------------
  // get_streaming_response

  /** One streamed chunk: a delta whose content may be absent, or a chunk
      without choices, on which `chunk.choices[0]` raises. */
  datatype Chunk = Delta(content: Option<string>) | NoChoices

  /** The chunks the server sends, and whether the request or the stream
      raised after them. A request that fails outright is `Stream([], true)`. */
  datatype Stream = Stream(chunks: seq<Chunk>, broken: bool)

  /** The text of a chunk; an absent content adds nothing. */
  function Fragment(c: Chunk): string {
    match c
    case Delta(Some(t)) => t
    case _ => ""
  }

  /** The concatenated fragments, in stream order. */
  function Joined(cs: seq<Chunk>): string {
    if |cs| == 0 then "" else Joined(cs[..|cs| - 1]) + Fragment(cs[|cs| - 1])
  }

  /** The number of chunks read before the first one without choices. */
  function Readable(cs: seq<Chunk>): (n: nat)
    ensures n <= |cs|
    ensures forall j | 0 <= j < n :: cs[j].Delta?
    ensures n < |cs| ==> cs[n].NoChoices?
  {
    if |cs| == 0 || cs[0].NoChoices? then 0 else 1 + Readable(cs[1..])
  }

  /** The stream is consumed to its end without an exception. */
  predicate Completes(s: Stream) {
    !s.broken && Readable(s.chunks) == |s.chunks|
  }

  /** Joining distributes over concatenation of chunk sequences. */
  lemma {:induction false} JoinedAppend(a: seq<Chunk>, b: seq<Chunk>)
    ensures Joined(a + b) == Joined(a) + Joined(b)
    decreases |b|
  {
    if |b| == 0 {
      assert a + b == a;
    } else {
      var b' := b[..|b| - 1];
      assert (a + b)[..|a + b| - 1] == a + b';
      JoinedAppend(a, b');
    }
  }

  /** The reply `get_streaming_response` returns: the stripped text of a
      stream read to its end, otherwise nothing. */
  function Reply(s: Stream): (r: string)
    ensures r == [] || (!IsSpace(r[0]) && !IsSpace(r[|r| - 1]))
  {
    if Completes(s) then Strip(Joined(s.chunks)) else ""
  }

  /** `get_streaming_response`: every fragment read is echoed as it
      arrives; the reply is the stripped concatenation of all fragments,
      or the empty string when anything raised (an error message is
      echoed instead, not modelled). */
  method StreamingResponse(s: Stream) returns (echo: string, reply: string)
    ensures echo == Joined(s.chunks[..Readable(s.chunks)])
    ensures Completes(s) ==> reply == Strip(Joined(s.chunks))
    ensures !Completes(s) ==> reply == ""
    ensures reply == Reply(s)
  {
    var n := Readable(s.chunks);
    echo := "";
    var i := 0;
    while i < |s.chunks| && s.chunks[i].Delta?
      invariant i <= n
      invariant echo == Joined(s.chunks[..i])
    {
      assert s.chunks[..i + 1][..i] == s.chunks[..i];
      echo := echo + Fragment(s.chunks[i]);
      i := i + 1;
    }
    assert i == n;
    if i < |s.chunks| || s.broken {
      reply := "";
    } else {
      assert s.chunks[..i] == s.chunks;
      reply := Strip(echo);
    }
  }


  /** A reply consisting only of whitespace is as good as none. */
  lemma BlankReplyIsEmpty(s: Stream)
    requires Completes(s) && AllSpace(Joined(s.chunks))
    ensures Reply(s) == ""
  {
  }

  // ---------------------------------------------------------------------
  // chat_with_local_model

  /** A `{"role": ..., "content": ...}` dictionary of this chat's history.
      Unlike the tutorial loops it sends plain role dictionaries, never
      trims them and never stores a raw result object. */
  datatype Role = SystemRole | User | Assistant
  datatype Message = Message(role: Role, content: string)

  /** The opening history: the system prompt read from the file when a
      (non-empty) file name is given, otherwise nothing. The file contents
      are a parameter. */
  function Opening(promptFile: Option<string>, contents: string): (h: seq<Message>)
    ensures |h| <= 1
    ensures h == [Message(SystemRole, contents)] <==> promptFile.Some? && promptFile.value != ""
  {
    if promptFile.Some? && promptFile.value != "" then [Message(SystemRole, contents)] else []
  }

  /** The words that end the chat, compared after stripping and lower-casing. */
  const QuitWords: set<string> := {"quit", "exit", "q"}

  datatype Outcome = Continue(history: seq<Message>) | Goodbye | Crash

  /** What a line asks for: ending the chat, nothing, or sending its
      stripped text. */
  datatype Command = Stop | Blank | Send(text: string)

  /** The quit check comes first: a line that strips and lower-cases to a
      quit word ends the chat, a blank line is skipped, anything else is
      sent stripped, with its case kept. */
  function Classify(raw: string): (c: Command)
    ensures c == Stop <==> ToLower(Strip(raw)) in QuitWords
    ensures c == Blank <==> AllSpace(raw)
    ensures c.Send? ==> c.text == Strip(raw) && c.text != ""
  {
    var u := Strip(raw);
    assert "" !in QuitWords;
    if ToLower(u) in QuitWords then Stop
    else if u == "" then Blank
    else Send(u)
  }

  /** One pass of the loop. `line` is what `input()` returned, `None` when
      it raised at end of input (not caught: the program stops). */
  function Turn(h: seq<Message>, line: Option<string>, server: seq<Message> -> Stream): (o: Outcome)
    ensures o.Crash? <==> line.None?
    ensures o.Goodbye? <==> line.Some? && ToLower(Strip(line.value)) in QuitWords
    ensures o.Continue? ==> |h| <= |o.history| <= |h| + 2 && o.history[..|h|] == h
  {
    match line
    case None => Crash
    case Some(raw) =>
      match Classify(raw)
      case Stop => Goodbye
      case Blank => Continue(h)
      case Send(u) =>
        var asked := h + [Message(User, u)];
        var r := Reply(server(asked));
        if r != "" then Continue(asked + [Message(Assistant, r)]) else Continue(asked)
  }

  /** The quit words are compared after lower-casing: "Q" ends the chat. */
  lemma QuitIgnoresCase()
    ensures Classify("Q") == Stop
  {
    StripOfStripped("Q");
    assert ToLower("Q") == "q";
  }

  /** A blank line changes nothing and asks the server nothing. */
  lemma BlankLineSkipped(h: seq<Message>, line: string, server: seq<Message> -> Stream)
    requires AllSpace(line)
    ensures Turn(h, Some(line), server) == Continue(h)
  {
    assert Classify(line) == Blank;
  }

  /** A real line is stored before the request, so the server sees it as
      the last message; the answer is stored only if it is not empty. */
  lemma UserMessageSentFirst(h: seq<Message>, line: string, server: seq<Message> -> Stream)
    requires Strip(line) != "" && ToLower(Strip(line)) !in QuitWords
    ensures var asked := h + [Message(User, Strip(line))];
      var r := Reply(server(asked));
      Turn(h, Some(line), server) == Continue(if r == "" then asked else asked + [Message(Assistant, r)])
  {
  }

  /** The shape every history keeps: a system message only at the start,
      every assistant message right after a user message, and no message
      with empty content except possibly the system prompt. */
  ghost predicate WellFormed(h: seq<Message>) {
    && (forall i | 0 < i < |h| :: h[i].role != SystemRole)
    && (forall i | 0 <= i < |h| && h[i].role == Assistant :: i > 0 && h[i - 1].role == User)
    && (forall i | 0 <= i < |h| && h[i].role != SystemRole :: h[i].content != "")
  }

  lemma OpeningWellFormed(promptFile: Option<string>, contents: string)
    ensures WellFormed(Opening(promptFile, contents))
  {
  }

  lemma TurnKeepsWellFormed(h: seq<Message>, line: Option<string>, server: seq<Message> -> Stream)
    requires WellFormed(h)
    ensures Turn(h, line, server).Continue? ==> WellFormed(Turn(h, line, server).history)
  {
    if line.Some? && Classify(line.value).Send? {
      var u := Classify(line.value).text;
      {
        var asked := h + [Message(User, u)];
        AppendKeepsWellFormed(h, Message(User, u));
        var r := Reply(server(asked));
        if r != "" {
          AppendKeepsWellFormed(asked, Message(Assistant, r));
        }
      }
    }
  }

  lemma AppendKeepsWellFormed(h: seq<Message>, m: Message)
    requires WellFormed(h)
    requires m.role != SystemRole && m.content != ""
    requires m.role == Assistant ==> |h| > 0 && h[|h| - 1].role == User
    ensures WellFormed(h + [m])
  {
  }

  /** The loop over a sequence of input lines, stopping at the first line
      that ends it. */
  function Chat(h: seq<Message>, lines: seq<Option<string>>, server: seq<Message> -> Stream): Outcome
    decreases |lines|
  {
    if |lines| == 0 then Continue(h)
    else match Turn(h, lines[0], server)
      case Continue(h') => Chat(h', lines[1..], server)
      case o => o
  }

  /** The history is never trimmed: what was there, including the system
      prompt, stays at the front, and the shape is kept. */
  lemma {:induction false} ChatOnlyAppends(h: seq<Message>, lines: seq<Option<string>>, server: seq<Message> -> Stream)
    requires WellFormed(h)
    ensures var o := Chat(h, lines, server);
      o.Continue? ==> |h| <= |o.history| && o.history[..|h|] == h && WellFormed(o.history)
    decreases |lines|
  {
    if |lines| > 0 {
      var t := Turn(h, lines[0], server);
      if t.Continue? {
        TurnKeepsWellFormed(h, lines[0], server);
        ChatOnlyAppends(t.history, lines[1..], server);
        var o := Chat(t.history, lines[1..], server);
        if o.Continue? {
          assert o.history[..|h|] == o.history[..|t.history|][..|h|];
        }
      }
    }
  }
}

=== FILE: mcp_client.dfy ===
/** One turn of the tool-calling assistant (`django_girls_mcp.py`): the
    agent's last message is stripped of a json fence, parsed, wrapped into a
    list, and every element is normalised into a tool name and arguments
    that are looked up in a fixed registry and run. Parsing JSON text and
    the tools themselves are parameters: `parse` gives the value `json.loads`
    would produce (or `None` when it raises) and `run` gives what a
    registered tool returns or raises for its keyword arguments. */
module McpClient {
  import opened Wrappers
  import opened Text
  import opened Chat
  import Display

  /** A parsed JSON value (numbers as integers). */
  datatype Json =
    | JNull
    | JBool(b: bool)
    | JNum(n: int)
    | JStr(s: string)
    | JArr(items: seq<Json>)
    | JObj(fields: map<string, Json>)

  /** Python truthiness of the parsed value. */
  predicate Truthy(j: Json) {
    match j
    case JNull => false
    case JBool(b) => b
    case JNum(n) => n != 0
    case JStr(s) => s != ""
    case JArr(xs) => |xs| > 0
    case JObj(m) => |m| > 0
  }

  const EmptyObj := JObj(map[])

  // ---------------------------------------------------------------------
  // Fence stripping

  const JsonFenceOpen := "```json\n"
  const JsonFenceClose := "\n```"

  /** `re.sub(r"^```json\n|\n```$", "", content)`: an opening json fence at
      the very start and a closing fence at the very end are removed. The
      substitution scans left to right without overlapping matches, so a
      closing fence is only found after an opening one that was removed. */
  function StripJsonFence(content: string): (r: string)
    ensures |r| <= |content|
    ensures StartsWith(content, JsonFenceOpen) && !EndsWith(content, JsonFenceClose) ==>
      r == content[|JsonFenceOpen|..]
    ensures !StartsWith(content, JsonFenceOpen) && EndsWith(content, JsonFenceClose) ==>
      r == content[..|content| - |JsonFenceClose|]
    ensures StartsWith(content, JsonFenceOpen) && EndsWith(content, JsonFenceClose)
            && |content| >= |JsonFenceOpen| + |JsonFenceClose| ==>
      r == content[|JsonFenceOpen|..|content| - |JsonFenceClose|]
    ensures !StartsWith(content, JsonFenceOpen) && !EndsWith(content, JsonFenceClose) ==> r == content
  {
    var rest := if StartsWith(content, JsonFenceOpen) then content[|JsonFenceOpen|..] else content;
    if EndsWith(rest, JsonFenceClose) then rest[..|rest| - |JsonFenceClose|] else rest
  }

  /** Fencing a payload and stripping the fence gives the payload back. */
  lemma StripJsonFenceRoundTrip(payload: string)
    ensures StripJsonFence(JsonFenceOpen + payload + JsonFenceClose) == payload
  {
    var c := JsonFenceOpen + payload + JsonFenceClose;
    assert c[..|JsonFenceOpen|] == JsonFenceOpen;
    var rest := c[|JsonFenceOpen|..];
    assert rest == payload + JsonFenceClose;
    assert rest[|rest| - |JsonFenceClose|..] == JsonFenceClose;
    assert rest[..|rest| - |JsonFenceClose|] == payload;
  }

  /** The two fences of "```json\n```" share their newline: the opening
      fence is removed and the closing one, which would overlap it, is not. */
  lemma StripJsonFenceOverlap()
    ensures StripJsonFence("```json\n```") == "```"
  {
    var c := "```json\n```";
    assert c[..|JsonFenceOpen|] == JsonFenceOpen;
    assert c[|JsonFenceOpen|..] == "```";
  }


  // ---------------------------------------------------------------------
  // Normalising one descriptor

  /** `d.get(k, default)`. */
  function Get(d: map<string, Json>, k: string, default: Json): Json {
    if k in d then d[k] else default
  }

  /** `d.get(outer, {}).get(inner, default)`; `None` when the outer value is
      not a dictionary, where Python raises `AttributeError`. */
  function GetNested(d: map<string, Json>, outer: string, inner: string, default: Json): Option<Json> {
    var v := Get(d, outer, EmptyObj);
    if v.JObj? then Some(Get(v.fields, inner, default)) else None
  }

  /** The tool name, as the `or`-chain in the source evaluates it: `action`,
      else `function.name`, else `function_call.name`. `None` when a lookup
      raised; otherwise the first truthy value or the last value tried. */
  function ToolName(d: map<string, Json>): Option<Json> {
    var action := Get(d, "action", JNull);
    if Truthy(action) then Some(action)
    else match GetNested(d, "function", "name", JNull)
      case None => None
      case Some(f) =>
        if Truthy(f) then Some(f) else GetNested(d, "function_call", "name", JNull)
  }

  /** The tool arguments, as the `or`-chain in the source evaluates it:
      `parameters`, else `arguments`, else `function_call.arguments`, else
      `function.arguments` (`"arguments" or "parameters"` is `"arguments"`). */
  function ToolParams(d: map<string, Json>): Option<Json> {
    var p := Get(d, "parameters", JNull);
    if Truthy(p) then Some(p)
    else
      var a := Get(d, "arguments", EmptyObj);
      if Truthy(a) then Some(a)
      else match GetNested(d, "function_call", "arguments", EmptyObj)
        case None => None
        case Some(c) =>
          if Truthy(c) then Some(c) else GetNested(d, "function", "arguments", EmptyObj)
  }

  /** One way of finding a value in a descriptor, with the default used when
      the last key is missing. */
  datatype KeyPath = Key(k: string, default: Json) | Nested(outer: string, inner: string, default: Json)

  function Lookup(d: map<string, Json>, p: KeyPath): Option<Json> {
    match p
    case Key(k, dflt) => Some(Get(d, k, dflt))
    case Nested(o, i, dflt) => GetNested(d, o, i, dflt)
  }

  /** An ordered list of extraction strategies: the first truthy result
      wins, the last one's result is the fallback, and a failing lookup
      aborts the chain. */
  function FirstTruthy(d: map<string, Json>, paths: seq<KeyPath>): Option<Json>
    requires |paths| > 0
    decreases |paths|
  {
    match Lookup(d, paths[0])
    case None => None
    case Some(v) => if Truthy(v) || |paths| == 1 then Some(v) else FirstTruthy(d, paths[1..])
  }

  const NamePaths: seq<KeyPath> :=
    [Key("action", JNull), Nested("function", "name", JNull), Nested("function_call", "name", JNull)]

  const ParamPaths: seq<KeyPath> :=
    [Key("parameters", JNull), Key("arguments", EmptyObj),
     Nested("function_call", "arguments", EmptyObj), Nested("function", "arguments", EmptyObj)]

  /** The name chain is the strategy list `action`, `function.name`,
      `function_call.name`, tried in that order. */
  lemma ToolNameIsOrdered(d: map<string, Json>)
    ensures ToolName(d) == FirstTruthy(d, NamePaths)
  {
    assert NamePaths[1..][1..] == [Nested("function_call", "name", JNull)];
  }

  /** The argument chain is the strategy list `parameters`, `arguments`,
      `function_call.arguments`, `function.arguments`, tried in that order. */
  lemma ToolParamsIsOrdered(d: map<string, Json>)
    ensures ToolParams(d) == FirstTruthy(d, ParamPaths)
  {
    var tail := ParamPaths[1..];
    assert tail == [Key("arguments", EmptyObj), Nested("function_call", "arguments", EmptyObj), Nested("function", "arguments", EmptyObj)];
    assert tail[1..] == [Nested("function_call", "arguments", EmptyObj), Nested("function", "arguments", EmptyObj)];
    assert tail[1..][1..] == [Nested("function", "arguments", EmptyObj)];
    if !Truthy(Get(d, "parameters", JNull)) {
      assert FirstTruthy(d, ParamPaths) == FirstTruthy(d, tail);
      if !Truthy(Get(d, "arguments", EmptyObj)) {
        assert FirstTruthy(d, tail) == FirstTruthy(d, tail[1..]);
        var c := GetNested(d, "function_call", "arguments", EmptyObj);
        if c.Some? && !Truthy(c.value) {
          assert FirstTruthy(d, tail[1..]) == FirstTruthy(d, tail[1..][1..]);
        }
      }
    }
  }

  /** A `parameters` entry nested under `function_call` or `function` is
      never consulted: changing it changes neither name nor arguments. */
  lemma NestedParametersIgnored(d: map<string, Json>, outer: string, inner: map<string, Json>, x: Json)
    requires outer in {"function_call", "function"}
    ensures var d' := d[outer := JObj(inner["parameters" := x])];
      var d0 := d[outer := JObj(inner)];
      ToolParams(d') == ToolParams(d0) && ToolName(d') == ToolName(d0)
  {
    var d' := d[outer := JObj(inner["parameters" := x])];
    var d0 := d[outer := JObj(inner)];
    assert Get(d', "action", JNull) == Get(d0, "action", JNull);
    assert Get(d', "parameters", JNull) == Get(d0, "parameters", JNull);
    assert Get(d', "arguments", EmptyObj) == Get(d0, "arguments", EmptyObj);
    assert GetNested(d', "function", "name", JNull) == GetNested(d0, "function", "name", JNull);
    assert GetNested(d', "function_call", "name", JNull) == GetNested(d0, "function_call", "name", JNull);
    assert GetNested(d', "function_call", "arguments", EmptyObj) == GetNested(d0, "function_call", "arguments", EmptyObj);
    assert GetNested(d', "function", "arguments", EmptyObj) == GetNested(d0, "function", "arguments", EmptyObj);
  }

  // ---------------------------------------------------------------------
  // Running one descriptor

  /** The keys of `execute_function_calls`'s registry. */
  const Registry: set<string> :=
    {"welcome_tutorial", "python_introduction", "explain_programming_concept",
     "setup_environment", "verify_environment", "install_django",
     "create_django_project", "create_blog_app", "create_post_model",
     "setup_admin", "create_blog_views", "test_blog"}

  /** What a registered tool did with its keyword arguments. */
  datatype ToolResult = Returned(text: string) | Raised(message: string)

  /** Why running a descriptor failed. */
  datatype ToolError =
    | UnknownTool(name: Json)      // KeyError, or TypeError for an unhashable name
    | NotAMapping(args: Json)      // TypeError from `**args`
    | ToolFailed(message: string)  // the tool raised

  /** The text the notice shows for the exception (`str(e)`). A `KeyError`
      shows the `repr` of the missing key; a list or dictionary name cannot
      be looked up at all and raises a `TypeError`. */
  function ErrorText(e: ToolError): string {
    match e
    case UnknownTool(JStr(s)) => Repr(s)
    case UnknownTool(JNum(n)) => Decimal(n)
    case UnknownTool(JBool(b)) => if b then "True" else "False"
    case UnknownTool(JNull) => "None"
    case UnknownTool(JArr(_)) => "unhashable type: 'list'"
    case UnknownTool(JObj(_)) => "unhashable type: 'dict'"
    case NotAMapping(_) => "argument after ** must be a mapping"
    case ToolFailed(m) => m
  }

  // ---------------------------------------------------------------------
  // Python's repr of a string and of an integer

  /** `repr(s)`: single quotes, unless the text holds a single quote and no
      double quote; inside, the escaped characters. */
  function Repr(s: string): string {
    var q := ReprQuote(s);
    [q] + Escaped(s, q) + [q]
  }

  function ReprQuote(s: string): char {
    if '\'' in s && '"' !in s then '"' else '\''
  }

  function Escaped(s: string, q: char): string {
    if |s| == 0 then "" else Escape(s[0], q) + Escaped(s[1..], q)
  }

  /** One character inside `repr`: the backslash and the chosen quote get a
      backslash; tab, newline and carriage return their letter escapes; the
      other ASCII control characters and DEL a `\xNN` escape. */
  function Escape(c: char, q: char): string {
    if c == q || c == '\\' then ['\\', c]
    else if c == '\t' then "\\t"
    else if c == '\n' then "\\n"
    else if c == '\r' then "\\r"
    else if c < ' ' || c as int == 0x7F then
      "\\x" + [HexDigit(c as int / 16), HexDigit(c as int % 16)]
    else [c]
  }

  function HexDigit(d: int): char
    requires 0 <= d < 16
  {
    if d < 10 then ('0' as int + d) as char else ('a' as int + d - 10) as char
  }

  function HexValue(c: char): (v: nat)
    ensures v < 16
  {
    if '0' <= c <= '9' then c as int - '0' as int
    else if 'a' <= c <= 'f' then c as int - 'a' as int + 10
    else 0
  }

  /** Reading the escapes back, as the Python parser reads the inside of a
      string literal. */
  function Unescaped(t: string): string
    decreases |t|
  {
    if |t| == 0 then ""
    else if t[0] == '\\' && |t| >= 4 && t[1] == 'x' then
      [(HexValue(t[2]) * 16 + HexValue(t[3])) as char] + Unescaped(t[4..])
    else if t[0] == '\\' && |t| >= 2 then
      [if t[1] == 't' then '\t' else if t[1] == 'n' then '\n' else if t[1] == 'r' then '\r' else t[1]]
        + Unescaped(t[2..])
    else [t[0]] + Unescaped(t[1..])
  }

  lemma HexRoundTrip(d: int)
    requires 0 <= d < 16
    ensures HexValue(HexDigit(d)) == d
  {
  }

  lemma UnescapeOne(c: char, q: char, rest: string)
    requires q == '\'' || q == '"'
    ensures Unescaped(Escape(c, q) + rest) == [c] + Unescaped(rest)
  {
    var e := Escape(c, q);
    if c == q || c == '\\' || c == '\t' || c == '\n' || c == '\r' {
      assert (e + rest)[2..] == rest;
    } else if c < ' ' || c as int == 0x7F {
      HexRoundTrip(c as int / 16);
      HexRoundTrip(c as int % 16);
      assert (e + rest)[4..] == rest;
    } else {
      assert (e + rest)[1..] == rest;
    }
  }

  /** The inside of `repr(s)` reads back as `s`. */
  lemma {:induction false} ReprRoundTrip(s: string)
    ensures var r := Repr(s);
      |r| >= 2 && r[0] == r[|r| - 1] == ReprQuote(s) && Unescaped(r[1..|r| - 1]) == s
  {
    var q := ReprQuote(s);
    var r := Repr(s);
    assert r[1..|r| - 1] == Escaped(s, q);
    EscapedRoundTrip(s, q);
  }

  lemma {:induction false} EscapedRoundTrip(s: string, q: char)
    requires q == '\'' || q == '"'
    ensures Unescaped(Escaped(s, q)) == s
    decreases |s|
  {
    if |s| > 0 {
      UnescapeOne(s[0], q, Escaped(s[1..], q));
      EscapedRoundTrip(s[1..], q);
    }
  }

  /** A name of printable ASCII without quotes or backslashes is shown
      between single quotes as it is; a name holding a single quote and no
      double quote is shown between double quotes. */
  lemma {:induction false} ReprQuoting(s: string)
    ensures (forall i | 0 <= i < |s| :: ' ' <= s[i] < '\U{7F}' && s[i] != '\'' && s[i] != '"' && s[i] != '\\')
      ==> Repr(s) == "'" + s + "'"
    ensures '\'' in s && '"' !in s ==> Repr(s)[0] == '"'
    ensures '\'' !in s ==> Repr(s)[0] == '\''
  {
    if forall i | 0 <= i < |s| :: ' ' <= s[i] < '\U{7F}' && s[i] != '\'' && s[i] != '"' && s[i] != '\\' {
      PlainEscaped(s, '\'');
    }
  }

  lemma {:induction false} PlainEscaped(s: string, q: char)
    requires q == '\''
    requires forall i | 0 <= i < |s| :: ' ' <= s[i] < '\U{7F}' && s[i] != '\'' && s[i] != '"' && s[i] != '\\'
    ensures Escaped(s, q) == s
    decreases |s|
  {
    if |s| > 0 {
      PlainEscaped(s[1..], q);
      assert s == [s[0]] + s[1..];
    }
  }

  /** `repr(n)` of an integer: its decimal digits, after a minus sign when
      negative. */
  function Decimal(n: int): string {
    if n < 0 then "-" + Digits(-n) else Digits(n)
  }

  function Digits(n: nat): string
    decreases n
  {
    if n < 10 then [('0' as int + n) as char] else Digits(n / 10) + [('0' as int + n % 10) as char]
  }

  datatype Executed = Ran(tool: string, text: string) | Failed(error: ToolError)

  /** `execute_function_calls(name, args)`: registry lookup, then a call
      with the arguments as keyword arguments. */
  function Execute(name: Json, args: Json, run: (string, map<string, Json>) -> ToolResult): (r: Executed)
    ensures r.Ran? <==> name.JStr? && name.s in Registry && args.JObj? && run(name.s, args.fields).Returned?
    ensures r.Ran? ==> r.tool == name.s && r.text == run(name.s, args.fields).text
    ensures !(name.JStr? && name.s in Registry) ==> r == Failed(UnknownTool(name))
  {
    if !(name.JStr? && name.s in Registry) then Failed(UnknownTool(name))
    else if !args.JObj? then Failed(NotAMapping(args))
    else match run(name.s, args.fields)
      case Returned(t) => Ran(name.s, t)
      case Raised(m) => Failed(ToolFailed(m))
  }

  /** The history record of a tool whose result was shown. */
  function ToolAcknowledgement(tool: string): string {
    "I called: " + tool + "\n\n"
  }

  /** History and panels while the descriptors of a turn are processed. */
  datatype Progress = Progress(history: seq<Message>, shown: seq<Panel>)

  /** A history entry a descriptor may add: an acknowledgement naming a
      registered tool, or the raw agent result. */
  predicate DescriptorEntry(m: Message, content: string) {
    || (exists t | t in Registry :: m == AI(ToolAcknowledgement(t)))
    || m == AgentResult(content)
  }

  /** One descriptor. `None` when an exception escapes the loop: a
      descriptor that is not a dictionary, or a nested lookup on something
      that is not a dictionary. A named descriptor's tool is run, its
      non-empty result shown and acknowledged in the history; a failure is
      shown as a notice; a nameless descriptor shows and stores the raw
      agent result. */
  function Handle(p: Progress, t: Json, content: string,
                  run: (string, map<string, Json>) -> ToolResult): (r: Option<Progress>)
    ensures r.Some? ==> |p.history| <= |r.value.history| <= |p.history| + 1 && r.value.history[..|p.history|] == p.history
    ensures r.Some? ==> forall i | |p.history| <= i < |r.value.history| :: DescriptorEntry(r.value.history[i], content)
  {
    if !t.JObj? then None
    else
      match (ToolName(t.fields), ToolParams(t.fields))
      case (None, _) => None
      case (_, None) => None
      case (Some(name), Some(args)) =>
        if Truthy(name) then
          match Execute(name, args, run)
          case Ran(tool, text) =>
            if text != "" then Some(Progress(p.history + [AI(ToolAcknowledgement(tool))], p.shown + [Agent(text)]))
            else Some(p)
          case Failed(e) => Some(Progress(p.history, p.shown + [Notice("Error getting tool: " + ErrorText(e))]))
        else Some(Progress(p.history + [AgentResult(content)], p.shown + [Agent(content)]))
  }

  /** The descriptors of a turn, in list order; a failure to run a tool does
      not stop the later descriptors, an escaping exception does. */
  function RunDescriptors(p: Progress, tools: seq<Json>, content: string,
                          run: (string, map<string, Json>) -> ToolResult): (r: Option<Progress>)
    decreases |tools|
    ensures r.Some? ==> |p.history| <= |r.value.history| && r.value.history[..|p.history|] == p.history
    ensures r.Some? ==> forall i | |p.history| <= i < |r.value.history| :: DescriptorEntry(r.value.history[i], content)
  {
    if |tools| == 0 then Some(p)
    else
      match Handle(p, tools[0], content, run)
      case None => None
      case Some(next) =>
        var r := RunDescriptors(next, tools[1..], content, run);
        if r.Some? then
          EntriesCompose(p.history, next.history, r.value.history, content);
          r
        else r
  }

  /** Two stretches of added descriptor entries make one. */
  lemma EntriesCompose(a: seq<Message>, b: seq<Message>, c: seq<Message>, content: string)
    requires |a| <= |b| && b[..|a|] == a
    requires forall i | |a| <= i < |b| :: DescriptorEntry(b[i], content)
    requires |b| <= |c| && c[..|b|] == b
    requires forall i | |b| <= i < |c| :: DescriptorEntry(c[i], content)
    ensures |a| <= |c| && c[..|a|] == a
    ensures forall i | |a| <= i < |c| :: DescriptorEntry(c[i], content)
  {
    assert c[..|a|] == c[..|b|][..|a|];
    forall i | |a| <= i < |c| ensures DescriptorEntry(c[i], content) {
      if i < |b| {
        assert c[i] == c[..|b|][i];
      }
    }
  }

  /** The descriptors are processed front to back: running a list is
      running its first part and then the rest from where that part left
      off, and an exception in the first part means the rest never runs. */
  lemma {:induction false} RunDescriptorsAppend(p: Progress, a: seq<Json>, b: seq<Json>, content: string,
                                                run: (string, map<string, Json>) -> ToolResult)
    ensures RunDescriptors(p, a + b, content, run) ==
      match RunDescriptors(p, a, content, run)
      case None => None
      case Some(q) => RunDescriptors(q, b, content, run)
    decreases |a|
  {
    if |a| == 0 {
      assert a + b == b;
    } else {
      assert (a + b)[0] == a[0];
      assert (a + b)[1..] == a[1..] + b;
      match Handle(p, a[0], content, run)
      case None =>
      case Some(next) => RunDescriptorsAppend(next, a[1..], b, content, run);
    }
  }

  /** `if type(tool_call) is not list: tool_call = [tool_call]`. */
  function AsList(v: Json): seq<Json> {
    if v.JArr? then v.items else [v]
  }

  /** A bare descriptor is handled exactly as a one-element list holding it,
      and a list of descriptors as its elements one after the other. */
  lemma BareDescriptorIsSingleton(p: Progress, d: Json, rest: seq<Json>, content: string,
                                  run: (string, map<string, Json>) -> ToolResult)
    requires !d.JArr?
    ensures RunDescriptors(p, AsList(d), content, run) == RunDescriptors(p, AsList(JArr([d])), content, run)
    ensures RunDescriptors(p, AsList(JArr([d] + rest)), content, run) ==
      match RunDescriptors(p, AsList(d), content, run)
      case None => None
      case Some(q) => RunDescriptors(q, rest, content, run)
  {
    RunDescriptorsAppend(p, [d], rest, content, run);
  }

  // ---------------------------------------------------------------------
  // The turn

  datatype UserInput = Line(text: string) | Interrupted
  /** The agent's answer (the content of its last message), or a failure. */
  datatype AgentReply = Reply(content: string) | AgentFailed
  datatype Outcome = Continue(history: seq<Message>, shown: seq<Panel>) | Exit(shown: seq<Panel>) | Crash

  /** One turn. */
  function Step(h: seq<Message>, input: UserInput, reply: AgentReply,
                parse: string -> Option<Json>, run: (string, map<string, Json>) -> ToolResult): Outcome
  {
    match input
    case Interrupted => Exit([Notice("Exiting.")])
    case Line(line) =>
      match TutorInput(line)
      case Skip => Continue(h, [])
      case Quit => Exit([Notice("Goodbye.")])
      case Say(u) =>
        match reply
        case AgentFailed => Crash
        case Reply(content) => Respond(h + [Human(u)], content, parse, run)
  }

  /** End of input and Ctrl-C at the prompt of `get_user_input` come back
      as the empty line, which this loop also skips without a change: its
      own exit on end of input is never taken. */
  lemma EndOfInputIsSkipped(h: seq<Message>, w: int, answer: Display.Answer, reply: AgentReply,
                            parse: string -> Option<Json>, run: (string, map<string, Json>) -> ToolResult)
    requires !answer.Typed?
    ensures Display.ReadInput(Some(w), answer).Input?
    ensures Step(h, Line(Display.ReadInput(Some(w), answer).line), reply, parse, run) == Continue(h, [])
  {
    assert AllSpace("");
  }

  /** The part of a turn after the agent answered; `asked` already ends
      with the user message. */
  function Respond(asked: seq<Message>, content: string,
                   parse: string -> Option<Json>, run: (string, map<string, Json>) -> ToolResult): (r: Outcome)
    ensures r.Continue? || r.Crash?
    ensures r.Continue? ==> |r.history| <= Ceiling
    ensures r.Continue? && |asked| > 0 ==> |r.history| > 0 && r.history[0] == asked[0]
  {
    var payload := StripJsonFence(content);
    if payload == "" then
      Continue(Trim(asked + [AgentResult(content)]), [Agent(content)])
    else match parse(payload)
      case None => Crash
      case Some(v) =>
        match RunDescriptors(Progress(asked, []), AsList(v), content, run)
        case None => Crash
        case Some(p) => Continue(Trim(p.history), p.shown)
  }

  /** At the start of every turn the history holds at most ten entries, and
      once it is non-empty its first entry (the first user message) stays. */
  lemma StepKeepsHistoryBounded(h: seq<Message>, input: UserInput, reply: AgentReply,
                                parse: string -> Option<Json>, run: (string, map<string, Json>) -> ToolResult)
    requires |h| <= Ceiling
    ensures var r := Step(h, input, reply, parse, run);
      r.Continue? ==> |r.history| <= Ceiling && (|h| > 0 ==> r.history[0] == h[0])
  {
    if input.Line? && TutorInput(input.text).Say? && reply.Reply? {
      var asked := h + [Human(TutorInput(input.text).text)];
      assert |h| > 0 ==> asked[0] == h[0];
    }
  }

  /** The first accepted message of a session becomes the entry that
      trimming always keeps. */
  lemma FirstMessageIsKept(line: string, reply: AgentReply,
                           parse: string -> Option<Json>, run: (string, map<string, Json>) -> ToolResult)
    requires TutorInput(line).Say?
    ensures var r := Step([], Line(line), reply, parse, run);
      r.Continue? ==> r.history[0] == Human(TutorInput(line).text)
  {
  }

  /** An empty payload after fence stripping is shown raw and the agent
      result is stored once. */
  lemma RespondEmptyPayload(asked: seq<Message>, content: string,
                            parse: string -> Option<Json>, run: (string, map<string, Json>) -> ToolResult)
    requires StripJsonFence(content) == ""
    ensures Respond(asked, content, parse, run) == Continue(Trim(asked + [AgentResult(content)]), [Agent(content)])
  {
  }

  /** Text that is not JSON raises outside the loop's handlers. */
  lemma RespondUnparsable(asked: seq<Message>, content: string,
                          parse: string -> Option<Json>, run: (string, map<string, Json>) -> ToolResult)
    requires StripJsonFence(content) != "" && parse(StripJsonFence(content)).None?
    ensures Respond(asked, content, parse, run) == Crash
  {
  }

  /** A registry miss is reported and the remaining descriptors still run. */
  lemma UnknownToolContinues(p: Progress, d: map<string, Json>, rest: seq<Json>, content: string,
                             run: (string, map<string, Json>) -> ToolResult)
    requires ToolName(d).Some? && Truthy(ToolName(d).value) && ToolParams(d).Some?
    requires !(ToolName(d).value.JStr? && ToolName(d).value.s in Registry)
    ensures RunDescriptors(p, [JObj(d)] + rest, content, run) ==
      RunDescriptors(Progress(p.history, p.shown + [Notice("Error getting tool: " + ErrorText(UnknownTool(ToolName(d).value)))]),
                     rest, content, run)
  {
    assert ([JObj(d)] + rest)[1..] == rest;
  }

  /** A tool with a non-empty result: the result is shown and only the
      acknowledgement naming the tool enters the history. */
  lemma ToolResultNotStored(p: Progress, d: map<string, Json>, rest: seq<Json>, content: string,
                            run: (string, map<string, Json>) -> ToolResult)
    requires ToolName(d).Some? && ToolParams(d).Some?
    requires Execute(ToolName(d).value, ToolParams(d).value, run).Ran?
    requires Execute(ToolName(d).value, ToolParams(d).value, run).text != ""
    ensures var name := ToolName(d).value.s;
      var text := Execute(ToolName(d).value, ToolParams(d).value, run).text;
      RunDescriptors(p, [JObj(d)] + rest, content, run) ==
        RunDescriptors(Progress(p.history + [AI(ToolAcknowledgement(name))], p.shown + [Agent(text)]), rest, content, run)
  {
    var name := ToolName(d).value;
    RegistryNamesAreTruthy(name.s);
    var text := Execute(name, ToolParams(d).value, run).text;
    assert Handle(p, JObj(d), content, run) ==
      Some(Progress(p.history + [AI(ToolAcknowledgement(name.s))], p.shown + [Agent(text)]));
    assert ([JObj(d)] + rest)[1..] == rest;
  }

  /** Every registered name is a non-empty, hence truthy, string. */
  lemma RegistryNamesAreTruthy(t: string)
    requires t in Registry
    ensures t != ""
  {
  }

  /** A descriptor without a name shows the raw agent answer and stores the
      agent result, once for every such descriptor. */
  lemma NamelessDescriptorStoresRaw(p: Progress, d: map<string, Json>, rest: seq<Json>, content: string,
                                    run: (string, map<string, Json>) -> ToolResult)
    requires ToolName(d).Some? && !Truthy(ToolName(d).value) && ToolParams(d).Some?
    ensures RunDescriptors(p, [JObj(d)] + rest, content, run) ==
      RunDescriptors(Progress(p.history + [AgentResult(content)], p.shown + [Agent(content)]), rest, content, run)
  {
    assert ([JObj(d)] + rest)[1..] == rest;
  }

  /** The descriptor the system prompt asks for on a greeting, `{"action":
      "welcome_tutorial", "parameters": {}}`, names `welcome_tutorial` with
      empty arguments (the empty `parameters` is falsy, so `arguments` is
      tried and its `{}` default wins). */
  lemma WelcomeDescriptor()
    ensures var d := map["action" := JStr("welcome_tutorial"), "parameters" := EmptyObj];
      ToolName(d) == Some(JStr("welcome_tutorial")) && ToolParams(d) == Some(EmptyObj)
  {
  }
}

=== FILE: mcp_server.dfy ===
/** The two tools of the tutorial server (`django_girls_mcp_server.py`) that
    compute something: `explain_programming_concept`, a keyword lookup, and
    `verify_environment`, a report built from three probes. The other tools
    return constant text and are not modelled. */
module McpServer {
  import opened Wrappers
  import opened Text

  // ---------------------------------------------------------------------
  // explain_programming_concept

  /** The keys of the explanation dictionary, in insertion order. */
  const ConceptKeys: seq<string> := ["variable", "function", "loop", "list", "string", "error"]

  /** The explanation stored under a key (opaque). */
  function Explanation(key: string): string {
    "<explanation: " + key + ">"
  }

  /** The reply when no key matches (opaque). */
  const ConceptListing := "<list of the six concepts>"

  /** The first key, in order, that occurs in `text`. */
  function FirstKeyIn(keys: seq<string>, text: string): (r: Option<nat>)
    decreases |keys|
    ensures r.Some? ==> r.value < |keys| && Contains(text, keys[r.value])
    ensures r.Some? ==> forall j | 0 <= j < r.value :: !Contains(text, keys[j])
    ensures r.None? ==> forall j | 0 <= j < |keys| :: !Contains(text, keys[j])
  {
    if |keys| == 0 then None
    else if Contains(text, keys[0]) then Some(0)
    else match FirstKeyIn(keys[1..], text)
      case None => None
      case Some(i) => Some(i + 1)
  }

  /** `explain_programming_concept(concept)`: the input is lower-cased (the
      keys already are) and the first key, in dictionary order, that occurs
      in it selects the explanation, wherever it occurs in the input. */
  function ExplainConcept(concept: string): string {
    match FirstKeyIn(ConceptKeys, ToLower(concept))
    case Some(i) => Explanation(ConceptKeys[i])
    case None => ConceptListing
  }

  /** The explanation of key number `i` is the answer exactly when that key
      occurs in the lower-cased input and no earlier key does. */
  lemma ExplainConceptFirstKey(concept: string, i: nat)
    requires i < |ConceptKeys|
    ensures ExplainConcept(concept) == Explanation(ConceptKeys[i]) <==>
      Contains(ToLower(concept), ConceptKeys[i]) && forall j | 0 <= j < i :: !Contains(ToLower(concept), ConceptKeys[j])
  {
    ExplanationsDistinct();
  }

  /** The listing is the answer exactly when no key occurs in the input. */
  lemma ExplainConceptFallback(concept: string)
    ensures ExplainConcept(concept) == ConceptListing <==>
      forall j | 0 <= j < |ConceptKeys| :: !Contains(ToLower(concept), ConceptKeys[j])
  {
    ExplanationsDistinct();
  }

  /** The seven possible answers are pairwise different. */
  lemma ExplanationsDistinct()
    ensures forall a, b | 0 <= a < b < |ConceptKeys| :: Explanation(ConceptKeys[a]) != Explanation(ConceptKeys[b])
    ensures forall k :: Explanation(k) != ConceptListing
  {
    forall a, b | 0 <= a < b < |ConceptKeys| ensures Explanation(ConceptKeys[a]) != Explanation(ConceptKeys[b]) {
      ExplanationInjective(ConceptKeys[a], ConceptKeys[b]);
    }
    forall k ensures Explanation(k) != ConceptListing {
      assert Explanation(k)[1] == 'e' && ConceptListing[1] == 'l';
    }
  }

  lemma ExplanationInjective(a: string, b: string)
    requires a != b
    ensures Explanation(a) != Explanation(b)
  {
    var p := "<explanation: ";
    assert Explanation(a)[|p|..|Explanation(a)| - 1] == a;
    assert Explanation(b)[|p|..|Explanation(b)| - 1] == b;
  }

  /** Matching ignores the letter case of the input. */
  lemma ExplainConceptCaseInsensitive(concept: string)
    ensures ExplainConcept(concept) == ExplainConcept(ToLower(concept))
  {
    ToLowerIdempotent(concept);
  }

  /** Key order, not position in the input, decides: "strings in a list"
      mentions `string` first but gets the `list` explanation. */
  lemma StringsInAList()
    ensures ExplainConcept("strings in a list") == Explanation("list")
  {
    var s := "strings in a list";
    ToLowerOfLower(s);
    KeysInStringsInAList();
    ExplainConceptFirstKey(s, 3);
  }

  lemma KeysInStringsInAList()
    ensures var s := "strings in a list";
      !Contains(s, ConceptKeys[0]) && !Contains(s, ConceptKeys[1]) && !Contains(s, ConceptKeys[2]) &&
      Contains(s, ConceptKeys[3])
  {
    var s := "strings in a list";
    NotContainsByFirstChar(s, "variable");
    NotContainsByFirstChar(s, "function");
    NoLoopInStringsInAList();
    assert OccursAt(s, 13, "list");
    ContainsAt(s, 13, "list");
  }

  lemma NoLoopInStringsInAList()
    ensures !Contains("strings in a list", "loop")
  {
    var s := "strings in a list";
    forall k | 0 <= k <= |s| - 4 ensures !OccursAt(s, k, "loop") {
      assert s[k..k + 4][1] == s[k + 1];
    }
  }

  // ---------------------------------------------------------------------
  // verify_environment

  /** The outcome of one shell probe. */
  datatype Probe = Probe(success: bool, output: string)

  /** The four findings the tool collects. */
  datatype Checks = Checks(pythonInstalled: bool, pythonVersion: Option<string>, venvActive: bool, pipAvailable: bool)

  /** One part of the report text. */
  datatype Entry =
    | Header
    | PythonFound(version: string)   // ✅
    | PythonMissing                  // ❌
    | VenvActive                     // ✅
    | VenvInactive                   // ⚠️ plus two lines of activation commands
    | PipFound                       // ✅
    | PipMissing                     // ❌
    | AllGood                        // "Everything looks great" closing
    | FixIssues                      // fix-the-issues closing

  datatype Report = Report(commands: seq<string>, checks: Checks, entries: seq<Entry>)

  const Python3Probe := "python3 --version"
  const PythonProbe := "python --version"
  const PipProbe := "pip --version"

  /** `verify_environment()` with the shell probes given by `run` and the
      process environment by `environ`. */
  function VerifyEnvironment(run: string -> Probe, environ: map<string, string>): Report {
    var p3 := run(Python3Probe);
    var p := run(PythonProbe);
    var pythonCommands := if p3.success then [Python3Probe] else [Python3Probe, PythonProbe];
    var python :=
      if p3.success then Some(Strip(p3.output))
      else if p.success then Some(Strip(p.output))
      else None;
    var venv := "VIRTUAL_ENV" in environ;
    var pip := run(PipProbe).success;
    var checks := Checks(python.Some?, python, venv, pip);
    Report(pythonCommands + [PipProbe], checks, ReportEntries(checks))
  }

  /** The report's parts, one per check and one closing. */
  function ReportEntries(c: Checks): seq<Entry> {
    [Header,
     if c.pythonInstalled then PythonFound(c.pythonVersion.GetOr("")) else PythonMissing,
     if c.venvActive then VenvActive else VenvInactive,
     if c.pipAvailable then PipFound else PipMissing,
     if c.pythonInstalled && c.venvActive && c.pipAvailable then AllGood else FixIssues]
  }

  /** The `python` probe runs only after `python3` failed, the `pip` probe
      always runs last, and the version is the stripped output of the probe
      that succeeded. */
  lemma ProbeOrder(run: string -> Probe, environ: map<string, string>)
    ensures var r := VerifyEnvironment(run, environ);
      && (PythonProbe in r.commands <==> !run(Python3Probe).success)
      && r.commands[0] == Python3Probe && r.commands[|r.commands| - 1] == PipProbe
      && (run(Python3Probe).success ==> r.checks.pythonVersion == Some(Strip(run(Python3Probe).output)))
      && (!run(Python3Probe).success && run(PythonProbe).success ==>
            r.checks.pythonVersion == Some(Strip(run(PythonProbe).output)))
      && (r.checks.pythonInstalled <==> run(Python3Probe).success || run(PythonProbe).success)
  {
  }

  /** The virtual-environment check holds exactly when `VIRTUAL_ENV` is
      set, even to the empty string; the pip check depends only on the pip probe. */
  lemma VenvAndPipChecks(run: string -> Probe, environ: map<string, string>, run': string -> Probe)
    requires run'(PipProbe) == run(PipProbe)
    ensures VerifyEnvironment(run, environ).checks.venvActive <==> "VIRTUAL_ENV" in environ
    ensures VerifyEnvironment(run, environ["VIRTUAL_ENV" := ""]).checks.venvActive
    ensures VerifyEnvironment(run', environ).checks.pipAvailable == VerifyEnvironment(run, environ).checks.pipAvailable
  {
  }

  predicate IsPythonEntry(e: Entry) { e.PythonFound? || e.PythonMissing? }
  predicate IsVenvEntry(e: Entry) { e.VenvActive? || e.VenvInactive? }
  predicate IsPipEntry(e: Entry) { e.PipFound? || e.PipMissing? }
  predicate IsClosing(e: Entry) { e.AllGood? || e.FixIssues? }

  function CountWhere(es: seq<Entry>, p: Entry -> bool): nat {
    if |es| == 0 then 0 else (if p(es[0]) then 1 else 0) + CountWhere(es[1..], p)
  }

  function Indicator(b: bool): nat { if b then 1 else 0 }

  lemma CountFive(es: seq<Entry>, p: Entry -> bool)
    requires |es| == 5
    ensures CountWhere(es, p) ==
      Indicator(p(es[0])) + Indicator(p(es[1])) + Indicator(p(es[2])) + Indicator(p(es[3])) + Indicator(p(es[4]))
  {
    var e1, e2, e3, e4 := es[1..], es[2..], es[3..], es[4..];
    assert e1[1..] == e2 && e2[1..] == e3 && e3[1..] == e4 && e4[1..] == [];
    assert CountWhere(e4, p) == Indicator(p(es[4]));
    assert CountWhere(e3, p) == Indicator(p(es[3])) + CountWhere(e4, p);
    assert CountWhere(e2, p) == Indicator(p(es[2])) + CountWhere(e3, p);
    assert CountWhere(e1, p) == Indicator(p(es[1])) + CountWhere(e2, p);
  }

  /** Every check contributes exactly one entry, and the report has exactly
      one closing: the "everything looks great" one exactly when all three
      checks pass. */
  lemma ReportHasOneEntryPerCheck(c: Checks)
    ensures var es := ReportEntries(c);
      && CountWhere(es, IsPythonEntry) == 1
      && CountWhere(es, IsVenvEntry) == 1
      && CountWhere(es, IsPipEntry) == 1
      && CountWhere(es, IsClosing) == 1
      && (AllGood in es <==> c.pythonInstalled && c.venvActive && c.pipAvailable)
      && (FixIssues in es <==> !(c.pythonInstalled && c.venvActive && c.pipAvailable))
  {
    var es := ReportEntries(c);
    CountFive(es, IsPythonEntry);
    CountFive(es, IsVenvEntry);
    CountFive(es, IsPipEntry);
    CountFive(es, IsClosing);
  }
}

=== FILE: offline.dfy ===
/** One turn of the offline tutorial assistant (`django-girls-offline.py`):
    read a line, ask the model, extract code from its reply, run it against
    the tutorial object, show the outcome and keep the history short.

    The program runs the extracted code with `eval`. The model replaces that
    with a closed dispatch: exactly the call shapes `tutorial.show('x')`,
    `tutorial.next_step()` and `tutorial.help('x')` (either quote character,
    and `tutorial.help()` with its default argument, the literal holding no
    escape and no NUL character) are dispatched; any other extracted text
    takes the branch the program takes when `eval` raises. */
module Offline {
  import opened Wrappers
  import opened Text
  import opened Chat
  import Tutorial
  import Extraction
  import Display

  // ---------------------------------------------------------------------
  // Closed dispatch in place of eval

  /** The calls the dispatch accepts. */
  datatype Call = ShowCall(topic: string) | NextStepCall | HelpCall(error: string)

  const ShowHead := "tutorial.show("
  const HelpHead := "tutorial.help("
  const NextStepText := "tutorial.next_step()"
  const HelpNoArgText := "tutorial.help()"

  /** The body of a one-line Python string literal quoted by `q`. A NUL
      character is excluded too: `eval` refuses any source text holding one. */
  predicate PlainBody(body: string, q: char) {
    forall i | 0 <= i < |body| ::
      body[i] != q && body[i] != '\\' && body[i] != '\n' && body[i] != '\r' && body[i] != '\0'
  }

  /** The value of a quoted string literal without escapes, if `x` is one. */
  function Literal(x: string): (r: Option<string>)
    ensures r.Some? ==> |x| >= 2 && x == [x[0]] + r.value + [x[0]] && (x[0] == '\'' || x[0] == '"') && PlainBody(r.value, x[0])
  {
    if |x| >= 2 && (x[0] == '\'' || x[0] == '"') && x[|x| - 1] == x[0] && PlainBody(x[1..|x| - 1], x[0]) then
      assert x == [x[0]] + x[1..|x| - 1] + [x[0]];
      Some(x[1..|x| - 1])
    else None
  }

  /** The argument of `head(...)` when `code` has that shape with a literal argument. */
  function LiteralArgument(code: string, head: string): Option<string> {
    if |code| >= |head| + 1 && StartsWith(code, head) && code[|code| - 1] == ')' then
      Literal(code[|head|..|code| - 1])
    else None
  }

  /** Recognise one of the accepted call shapes. */
  function ParseCall(code: string): Option<Call> {
    if code == NextStepText then Some(NextStepCall)
    else if code == HelpNoArgText then Some(HelpCall(""))
    else match LiteralArgument(code, ShowHead)
      case Some(a) => Some(ShowCall(a))
      case None =>
        match LiteralArgument(code, HelpHead)
        case Some(a) => Some(HelpCall(a))
        case None => None
  }

  /** An argument that can be written between single quotes without escapes. */
  predicate SafeArgument(a: string) {
    PlainBody(a, '\'')
  }

  /** The call written the way the assistant's instructions spell it. */
  function Render(c: Call): string {
    match c
    case ShowCall(a) => ShowHead + "'" + a + "')"
    case NextStepCall => NextStepText
    case HelpCall(e) => HelpHead + "'" + e + "')"
  }

  /** The same call with its argument in double quotes. */
  function RenderDoubleQuoted(c: Call): string {
    match c
    case ShowCall(a) => ShowHead + "\"" + a + "\")"
    case NextStepCall => NextStepText
    case HelpCall(e) => HelpHead + "\"" + e + "\")"
  }

  function ArgumentOf(c: Call): string {
    match c
    case ShowCall(a) => a
    case NextStepCall => ""
    case HelpCall(e) => e
  }

  lemma LiteralOfQuoted(a: string, q: char)
    requires q == '\'' || q == '"'
    requires PlainBody(a, q)
    ensures Literal([q] + a + [q]) == Some(a)
  {
    var x := [q] + a + [q];
    assert x[1..|x| - 1] == a;
  }

  lemma LiteralArgumentOf(head: string, a: string, q: char)
    requires q == '\'' || q == '"'
    requires PlainBody(a, q)
    ensures LiteralArgument(head + [q] + a + [q] + ")", head) == Some(a)
  {
    var code := head + [q] + a + [q] + ")";
    assert code[..|head|] == head;
    assert code[|head|..|code| - 1] == [q] + a + [q];
    LiteralOfQuoted(a, q);
  }

  /** Writing a call and reading it back gives the same call. */
  lemma ParseRender(c: Call)
    requires SafeArgument(ArgumentOf(c))
    ensures ParseCall(Render(c)) == Some(c)
  {
    match c
    case NextStepCall =>
    case ShowCall(a) =>
      LiteralArgumentOf(ShowHead, a, '\'');
      assert Render(c) == ShowHead + ['\''] + a + ['\''] + ")";
      assert Render(c)[9] == ShowHead[9] == 's';
      assert NextStepText[9] == 'n' && HelpNoArgText[9] == 'h';
    case HelpCall(e) =>
      LiteralArgumentOf(HelpHead, e, '\'');
      assert Render(c) == HelpHead + ['\''] + e + ['\''] + ")";
      assert Render(c)[9] == HelpHead[9] == 'h';
      assert NextStepText[9] == 'n' && ShowHead[9] == 's';
      assert Render(c)[14] == '\'' && |HelpNoArgText| == 15 && HelpNoArgText[14] == ')';
  }

  /** A call whose literal holds a NUL character is not dispatched: it takes
      the branch of a failing `eval`, as the program's does. */
  lemma NulArgumentRefused(head: string, a: string, q: char)
    requires head == ShowHead || head == HelpHead
    requires q == '\'' || q == '"'
    requires exists i :: 0 <= i < |a| && a[i] == '\0'
    ensures ParseCall(head + [q] + a + [q] + ")") == None
  {
    var code := head + [q] + a + [q] + ")";
    var i :| 0 <= i < |a| && a[i] == '\0';
    var x := code[|head|..|code| - 1];
    assert x == [q] + a + [q];
    assert x[1..|x| - 1] == a;
    assert !PlainBody(a, q) by { assert a[i] == '\0'; }
    assert Literal(x) == None;
    assert |ShowHead| == |HelpHead| == |head|;
    assert code[9] == head[9] && NextStepText[9] == 'n';
    assert code[14] == q && HelpNoArgText[14] == ')';
  }

  /** A literal argument means the code is the head, a quoted literal and ')'. */
  lemma LiteralArgumentShape(code: string, head: string)
    requires LiteralArgument(code, head).Some?
    ensures var q := code[|head|];
      && (q == '\'' || q == '"')
      && code == head + [q] + LiteralArgument(code, head).value + [q] + ")"
  {
    var x := code[|head|..|code| - 1];
    assert code == code[..|head|] + x + [code[|code| - 1]];
  }

  /** Only the accepted spellings are recognised: whatever the dispatch
      accepts is a call written with single or double quotes, or the
      argument-less `help`. */
  lemma ParseCallOnlyAcceptsCalls(code: string)
    requires ParseCall(code).Some?
    ensures var c := ParseCall(code).value;
      code == Render(c) || code == RenderDoubleQuoted(c) || (code == HelpNoArgText && c == HelpCall(""))
  {
    if code != NextStepText && code != HelpNoArgText {
      if LiteralArgument(code, ShowHead).Some? {
        var a := LiteralArgument(code, ShowHead).value;
        assert ParseCall(code) == Some(ShowCall(a));
        LiteralArgumentShape(code, ShowHead);
        QuotedIsRendered(code, ShowCall(a), ShowHead, a);
      } else {
        var a := LiteralArgument(code, HelpHead).value;
        assert ParseCall(code) == Some(HelpCall(a));
        LiteralArgumentShape(code, HelpHead);
        QuotedIsRendered(code, HelpCall(a), HelpHead, a);
      }
    }
  }

  /** A call whose text is its head, `a` quoted one way or the other, and ')'. */
  lemma QuotedIsRendered(code: string, c: Call, head: string, a: string)
    requires c.ShowCall? || c.HelpCall?
    requires head == (if c.ShowCall? then ShowHead else HelpHead) && a == ArgumentOf(c)
    requires |code| > |head| && (code[|head|] == '\'' || code[|head|] == '"')
    requires code == head + [code[|head|]] + a + [code[|head|]] + ")"
    ensures code == Render(c) || code == RenderDoubleQuoted(c)
  {
    if code[|head|] == '\'' {
      assert code == Render(c);
    } else {
      assert code == RenderDoubleQuoted(c);
    }
  }

  /** Running an accepted call on the tutorial object. */
  function Eval(t: Tutorial.State, c: Call): Tutorial.Shown {
    match c
    case ShowCall(topic) => Tutorial.Show(t, topic)
    case NextStepCall => Tutorial.Shown(Tutorial.NextStep(t), t)
    case HelpCall(e) => Tutorial.Shown(Tutorial.Help(e), t)
  }

  /** Every accepted call answers non-empty text, so the program's branch
      for a falsy result is never taken under the dispatch; only `show`
      can change the tutorial state, and the state stays valid. */
  lemma EvalAlwaysTruthy(t: Tutorial.State, c: Call)
    ensures Eval(t, c).text != ""
    ensures !c.ShowCall? ==> Eval(t, c).state == t
    ensures Tutorial.Valid(t) ==> Tutorial.Valid(Eval(t, c).state)
  {
    match c
    case ShowCall(topic) =>
      var r := Tutorial.Show(t, topic);
      if topic in Tutorial.ContentKeys {
        assert r.text[0] == '<';
      } else if topic in Tutorial.SnippetKeys {
        assert r.text[0] == '`';
      } else {
        assert r.text[0] == 'A';
      }
    case NextStepCall =>
      var i := Tutorial.IndexOf(Tutorial.Flow, t.current);
      if i.Some? && i.value < |Tutorial.Flow| - 1 {
        assert |Tutorial.Suggestion(Tutorial.Flow[i.value + 1])| > 0;
      } else {
        assert |Tutorial.CompletionMessage| > 0;
      }
    case HelpCall(e) =>
      assert |Tutorial.VenvTip| == 116 && |Tutorial.MigrateTip| == 75;
      assert |Tutorial.TemplateTip| == 55 && |Tutorial.GenericTip| == 84;
  }

  // ---------------------------------------------------------------------
  // The turn

  /** The system message (opaque). */
  const SystemPrompt := "<offline tutor instructions>"

  /** The conversation history and the tutorial object. */
  datatype Session = Session(history: seq<Message>, tutor: Tutorial.State)

  /** What the input call produced: a line, or end of input / interrupt. */
  datatype UserInput = Line(text: string) | Interrupted

  /** The model's answer, or a failed completion request. */
  datatype Completion = Reply(content: string) | CompletionFailed

  /** How a turn ends: the loop goes on, the loop ends, or an exception
      escapes the loop. */
  datatype Outcome = Continue(session: Session, shown: seq<Panel>) | Exit(shown: seq<Panel>) | Crash

  function Start(): Session {
    Session([System(SystemPrompt)], Tutorial.Init())
  }

  /** The history record of a call whose result was shown. */
  function Acknowledgement(code: string): string {
    "I called: " + code + "\n\nResult shown above."
  }

  /** The loop's invariant at the start of every turn. */
  ghost predicate Good(s: Session) {
    && 1 <= |s.history| <= Ceiling
    && s.history[0] == System(SystemPrompt)
    && Tutorial.Valid(s.tutor)
  }

  /** One turn. `raised(code)` is the text of the exception the program
      gets for code outside the accepted shapes. */
  function Step(s: Session, input: UserInput, reply: Completion, raised: string -> string): (r: Outcome)
    ensures Good(s) && r.Continue? ==> Good(r.session)
  {
    match input
    case Interrupted => Exit([Notice("Exiting.")])
    case Line(line) =>
      match TutorInput(line)
      case Skip => Continue(s, [])
      case Quit => Exit([Notice("Goodbye.")])
      case Say(u) =>
        match reply
        case CompletionFailed => Crash
        case Reply(content) => Respond(s, u, content, raised)
  }

  /** The part of a turn after the model answered `content` to the user message `u`. */
  function Respond(s: Session, u: string, content: string, raised: string -> string): (r: Outcome)
    ensures r.Continue?
    ensures Good(s) ==> Good(r.session)
  {
    var asked := s.history + [Human(u)];
    match Extraction.ExtractCode(content)
    case None =>
      Continue(Session(Trim(asked + [AI(content)]), s.tutor), [Agent(content)])
    case Some(code) =>
      match ParseCall(code)
      case None =>
        var e := raised(code);
        Continue(Session(Trim(asked), s.tutor), [Notice("Error executing code: " + e), Agent(Tutorial.Help(e))])
      case Some(call) =>
        EvalAlwaysTruthy(s.tutor, call);
        var result := Eval(s.tutor, call);
        if result.text != "" then
          Continue(Session(Trim(asked + [AI(Acknowledgement(code))]), result.state), [Agent(result.text)])
        else
          Continue(Session(Trim(asked), result.state), [])
  }

  lemma StartIsGood()
    ensures Good(Start())
  {
  }

  /** The history starts as the system message alone; from then on, at the
      start of every turn, it holds at most ten entries and still begins with
      the system message, over any sequence of turns. */
  lemma {:induction false} RunKeepsGood(s: Session, turns: seq<(UserInput, Completion)>, raised: string -> string)
    requires Good(s)
    ensures Good(Run(s, turns, raised))
    decreases |turns|
  {
    if |turns| > 0 {
      var r := Step(s, turns[0].0, turns[0].1, raised);
      if r.Continue? {
        RunKeepsGood(r.session, turns[1..], raised);
      }
    }
  }

  /** The session after a sequence of turns, stopping at the first turn
      that does not continue. */
  function Run(s: Session, turns: seq<(UserInput, Completion)>, raised: string -> string): Session
    decreases |turns|
  {
    if |turns| == 0 then s
    else match Step(s, turns[0].0, turns[0].1, raised)
      case Continue(next, _) => Run(next, turns[1..], raised)
      case _ => s
  }

  /** End of input and Ctrl-C at the prompt of `get_user_input` come back
      as the empty line, which the loop skips: the turn changes nothing and
      shows nothing, and the loop's own exit on end of input is never taken. */
  lemma EndOfInputIsSkipped(s: Session, w: int, answer: Display.Answer, reply: Completion, raised: string -> string)
    requires !answer.Typed?
    ensures Display.ReadInput(Some(w), answer).Input?
    ensures TutorInput(Display.ReadInput(Some(w), answer).line) == Skip
    ensures Step(s, Line(Display.ReadInput(Some(w), answer).line), reply, raised) == Continue(s, [])
  {
    assert AllSpace("");
  }

  /** Once the input is exhausted the loop goes round forever: any number
      of turns that read end of input leave the session as it was. */
  lemma {:induction false} EndOfInputSpins(s: Session, w: int, turns: seq<(UserInput, Completion)>, raised: string -> string)
    requires forall i | 0 <= i < |turns| :: turns[i].0 == Line(Display.ReadInput(Some(w), Display.EndOfInput).line)
    ensures Run(s, turns, raised) == s
    decreases |turns|
  {
    if |turns| > 0 {
      EndOfInputIsSkipped(s, w, Display.EndOfInput, turns[0].1, raised);
      EndOfInputSpins(s, w, turns[1..], raised);
    }
  }

  /** An empty or blank line changes nothing and shows nothing; `/exit` and
      `/quit` in any letter case end the loop. */
  lemma StepInputHandling(s: Session, line: string, reply: Completion, raised: string -> string)
    ensures AllSpace(line) ==> Step(s, Line(line), reply, raised) == Continue(s, [])
    ensures ToLower(Strip(line)) in {"/exit", "/quit"} ==> Step(s, Line(line), reply, raised).Exit?
  {
    if ToLower(Strip(line)) in {"/exit", "/quit"} {
      assert Strip(line) != [];
    }
  }

  /** A failed completion request is not caught by the loop; an answer
      goes on to be interpreted. */
  lemma StepAsksModel(s: Session, line: string, reply: Completion, raised: string -> string)
    requires TutorInput(line).Say?
    ensures reply.CompletionFailed? ==> Step(s, Line(line), reply, raised) == Crash
    ensures reply.Reply? ==> Step(s, Line(line), reply, raised) == Respond(s, TutorInput(line).text, reply.content, raised)
  {
  }

  /** A reply with code the dispatch accepts: the result is shown, and the
      history gains exactly the user message and an acknowledgement naming
      the code, never the result text. */
  lemma RespondRunsCall(s: Session, u: string, content: string, raised: string -> string)
    requires Extraction.ExtractCode(content).Some?
    requires ParseCall(Extraction.ExtractCode(content).value).Some?
    ensures var code := Extraction.ExtractCode(content).value;
      var result := Eval(s.tutor, ParseCall(code).value);
      Respond(s, u, content, raised) ==
        Continue(Session(Trim(s.history + [Human(u), AI(Acknowledgement(code))]), result.state), [Agent(result.text)])
  {
    EvalAlwaysTruthy(s.tutor, ParseCall(Extraction.ExtractCode(content).value).value);
    assert s.history + [Human(u)] + [AI(Acknowledgement(Extraction.ExtractCode(content).value))]
        == s.history + [Human(u), AI(Acknowledgement(Extraction.ExtractCode(content).value))];
  }

  /** Code the dispatch refuses: a notice with the exception text and the
      `help` reply for it are shown, and the history gains only the user
      message; the tutorial state is untouched. */
  lemma RespondRefusedCode(s: Session, u: string, content: string, raised: string -> string)
    requires Extraction.ExtractCode(content).Some?
    requires ParseCall(Extraction.ExtractCode(content).value).None?
    ensures var e := raised(Extraction.ExtractCode(content).value);
      Respond(s, u, content, raised) ==
        Continue(Session(Trim(s.history + [Human(u)]), s.tutor),
                 [Notice("Error executing code: " + e), Agent(Tutorial.Help(e))])
  {
  }

  /** A reply with no code: it is shown and stored verbatim. */
  lemma RespondRawReply(s: Session, u: string, content: string, raised: string -> string)
    requires Extraction.ExtractCode(content).None?
    ensures Respond(s, u, content, raised) ==
      Continue(Session(Trim(s.history + [Human(u), AI(content)]), s.tutor), [Agent(content)])
  {
    assert s.history + [Human(u)] + [AI(content)] == s.history + [Human(u), AI(content)];
  }

  /** The first turn of a session whose reply is a fenced `show` of a
      content key (a greeting answered with `tutorial.show('welcome')`, say):
      the topic's text is shown, the history holds the system message, the
      stripped user line and an acknowledgement, and the cursor is at the topic
      with `welcome`, where it started, completed. */
  lemma FirstTurnShowsTopic(line: string, topic: string, raised: string -> string)
    requires TutorInput(line).Say?
    requires topic in Tutorial.ContentKeys
    ensures var code := Render(ShowCall(topic));
      Step(Start(), Line(line), Reply(Extraction.FenceOpen + code + Extraction.FenceClose), raised) ==
        Continue(Session([System(SystemPrompt), Human(TutorInput(line).text), AI(Acknowledgement(code))],
                         Tutorial.State(topic, {"welcome"})),
                 [Agent(Tutorial.ContentText(topic))])
  {
    var code := Render(ShowCall(topic));
    var reply := Extraction.FenceOpen + code + Extraction.FenceClose;
    FirstReplyShowsTopic(TutorInput(line).text, topic, raised);
    StepAsksModel(Start(), line, Reply(reply), raised);
  }

  lemma FirstReplyShowsTopic(u: string, topic: string, raised: string -> string)
    requires topic in Tutorial.ContentKeys
    ensures var code := Render(ShowCall(topic));
      Respond(Start(), u, Extraction.FenceOpen + code + Extraction.FenceClose, raised) ==
        Continue(Session([System(SystemPrompt), Human(u), AI(Acknowledgement(code))],
                         Tutorial.State(topic, {"welcome"})),
                 [Agent(Tutorial.ContentText(topic))])
  {
    var code := Render(ShowCall(topic));
    var reply := Extraction.FenceOpen + code + Extraction.FenceClose;
    var h := [System(SystemPrompt), Human(u), AI(Acknowledgement(code))];
    FencedShowRuns(topic);
    RespondRunsCall(Start(), u, reply, raised);
    assert Start().history + [Human(u), AI(Acknowledgement(code))] == h;
    assert Trim(h) == h;
  }

  /** A fenced `show` of a content key is extracted and parsed back to that call. */
  lemma FencedShowRuns(topic: string)
    requires topic in Tutorial.ContentKeys
    ensures var code := Render(ShowCall(topic));
      && Extraction.ExtractCode(Extraction.FenceOpen + code + Extraction.FenceClose) == Some(code)
      && ParseCall(code) == Some(ShowCall(topic))
  {
    var code := Render(ShowCall(topic));
    ContentKeysNeedNoEscapes();
    assert code == ShowHead + "'" + topic + "')";
    Extraction.FencedLineExtracts(code);
    ParseRender(ShowCall(topic));
  }

  /** Every content key can be written between quotes as it is. */
  lemma ContentKeysNeedNoEscapes()
    ensures forall k | k in Tutorial.ContentKeys :: SafeArgument(k)
  {
    forall i | 0 <= i < |Tutorial.ContentKeys| ensures SafeArgument(Tutorial.ContentKeys[i]) {
      SnakeCaseIsSafe(Tutorial.ContentKeys[i]);
    }
  }

  /** Lower-case letters and underscores, the spelling of every tutorial key. */
  predicate SnakeCase(k: string) {
    forall i | 0 <= i < |k| :: 'a' <= k[i] <= 'z' || k[i] == '_'
  }

  lemma SnakeCaseIsSafe(k: string)
    requires SnakeCase(k)
    ensures SafeArgument(k)
  {
  }

  /** The greeting needs no stripping and is not a quit word. */
  lemma HelloIsSaid()
    ensures TutorInput("hello") == Say("hello")
  {
    StripOfStripped("hello");
    assert ToLower("hello")[0] == 'h';
  }
}

=== FILE: text.dfy ===
/** String operations of Python's `str` that the chat loops rely on:
    substring tests, prefix tests, `strip()`, `lower()` and `', '.join`.
    Case folding and white space are ASCII-only (see README). */
module Text {
  import opened Wrappers

  /** `p` occurs in `s` starting at index `i`. */
  predicate OccursAt(s: string, i: int, p: string) {
    0 <= i && i + |p| <= |s| && s[i..i + |p|] == p
  }

  /** Python's `sub in s` for strings. */
  predicate Contains(s: string, sub: string) {
    exists i | 0 <= i <= |s| - |sub| :: OccursAt(s, i, sub)
  }

  /** Python's `s.startswith(p)`. */
  predicate StartsWith(s: string, p: string) {
    |p| <= |s| && s[..|p|] == p
  }

  /** Python's `s.endswith(p)`. */
  predicate EndsWith(s: string, p: string) {
    |p| <= |s| && s[|s| - |p|..] == p
  }

  /** The first index at or after `from` where `p` occurs, as `str.find` from `from`. */
  function FindFrom(s: string, from: nat, p: string): (r: Option<nat>)
    decreases |s| - from
    ensures r.Some? ==> from <= r.value && OccursAt(s, r.value, p)
    ensures r.Some? ==> forall k | from <= k < r.value :: !OccursAt(s, k, p)
    ensures r.None? ==> forall k | from <= k :: !OccursAt(s, k, p)
  {
    if from + |p| > |s| then None
    else if OccursAt(s, from, p) then Some(from)
    else FindFrom(s, from + 1, p)
  }

  /** A witness position proves containment. */
  lemma ContainsAt(s: string, i: int, sub: string)
    requires OccursAt(s, i, sub)
    ensures Contains(s, sub)
  {
  }

  /** A string that lacks the first character of `sub` cannot contain `sub`. */
  lemma NotContainsByFirstChar(s: string, sub: string)
    requires |sub| > 0 && sub[0] !in s
    ensures !Contains(s, sub)
  {
    forall i | 0 <= i <= |s| - |sub| ensures !OccursAt(s, i, sub) {
      assert s[i..i + |sub|][0] == s[i] != sub[0];
    }
  }

  // ---------------------------------------------------------------------
  // Case folding

  function LowerChar(c: char): (d: char)
  {
    if 'A' <= c <= 'Z' then (c as int + 32) as char else c
  }

  /** Python's `s.lower()`, restricted to ASCII letters. */
  function ToLower(s: string): (r: string)
    ensures |r| == |s|
    ensures forall i | 0 <= i < |s| :: r[i] == LowerChar(s[i])
  {
    seq(|s|, i requires 0 <= i < |s| => LowerChar(s[i]))
  }

  /** Lower-casing twice is lower-casing once. */
  lemma ToLowerIdempotent(s: string)
    ensures ToLower(ToLower(s)) == ToLower(s)
  {
    var a, b := ToLower(s), ToLower(ToLower(s));
    assert forall i | 0 <= i < |s| :: b[i] == a[i];
  }

  /** A string without upper-case ASCII letters is its own lower-case form. */
  lemma ToLowerOfLower(s: string)
    requires forall i | 0 <= i < |s| :: !('A' <= s[i] <= 'Z')
    ensures ToLower(s) == s
  {
  }

  // ---------------------------------------------------------------------
  // White space

  /** The ASCII characters Python's `str.isspace` accepts. */
  predicate IsSpace(c: char) {
    c == ' ' || ('\t' <= c <= '\r') || (28 as char <= c <= 31 as char)
  }

  predicate AllSpace(s: string) {
    forall i | 0 <= i < |s| :: IsSpace(s[i])
  }

  function StripStart(s: string): (r: string)
    ensures |r| <= |s| && r == s[|s| - |r|..]
    ensures AllSpace(s[..|s| - |r|])
    ensures r == [] || !IsSpace(r[0])
  {
    if |s| > 0 && IsSpace(s[0]) then
      var r := StripStart(s[1..]);
      assert r == s[1..][|s| - 1 - |r|..] == s[|s| - |r|..];
      forall k | 0 < k < |s| - |r| ensures IsSpace(s[k]) {
        assert s[k] == s[1..][..|s| - 1 - |r|][k - 1];
      }
      r
    else s
  }

  function StripEnd(s: string): (r: string)
    ensures |r| <= |s| && r == s[..|r|]
    ensures AllSpace(s[|r|..])
    ensures r == [] || !IsSpace(r[|r| - 1])
  {
    if |s| > 0 && IsSpace(s[|s| - 1]) then
      var r := StripEnd(s[..|s| - 1]);
      assert r == s[..|s| - 1][..|r|] == s[..|r|];
      forall k | |r| <= k < |s| - 1 ensures IsSpace(s[k]) {
        assert s[k] == s[..|s| - 1][|r|..][k - |r|];
      }
      r
    else s
  }

  /** Python's `s.strip()`: it neither starts nor ends with white space,
      and it is empty exactly when `s` is all white space. */
  function Strip(s: string): (r: string)
    ensures r == [] || (!IsSpace(r[0]) && !IsSpace(r[|r| - 1]))
    ensures r == [] <==> AllSpace(s)
  {
    StripEnds(s);
    StripEnd(StripStart(s))
  }

  lemma StripEnds(s: string)
    ensures var r := StripEnd(StripStart(s));
      && (r == [] || (!IsSpace(r[0]) && !IsSpace(r[|r| - 1])))
      && (r == [] <==> AllSpace(s))
  {
    var a := StripStart(s);
    StripEmptyOnlyIfBlank(s, |s| - |a|, a);
    StripEndKeepsFirst(a);
  }

  lemma StripEndKeepsFirst(a: string)
    requires a == [] || !IsSpace(a[0])
    ensures StripEnd(a) == [] || !IsSpace(StripEnd(a)[0])
  {
    var r := StripEnd(a);
    assert r != [] ==> r[0] == a[..|r|][0];
  }

  /** The stripped string is a slice of `s` with only white space cut off
      either end. */
  lemma StripIsSlice(s: string)
    ensures exists i, j | 0 <= i <= j <= |s| :: Strip(s) == s[i..j] && AllSpace(s[..i]) && AllSpace(s[j..])
  {
    var a := StripStart(s);
    var i := |s| - |a|;
    StripEndOfSuffix(s, i, a);
    var r := StripEnd(a);
    assert 0 <= i <= i + |r| <= |s| && r == s[i..i + |r|] && AllSpace(s[..i]) && AllSpace(s[i + |r|..]);
  }

  /** Stripping the end of a suffix `a == s[i..]` gives a slice of `s`. */
  lemma StripEndOfSuffix(s: string, i: nat, a: string)
    requires i <= |s| && a == s[i..]
    ensures var r := StripEnd(a);
      i + |r| <= |s| && r == s[i..i + |r|] && AllSpace(s[i + |r|..])
  {
    var r := StripEnd(a);
    assert r == a[..|r|] == s[i..i + |r|];
    assert a[|r|..] == s[i + |r|..];
  }

  lemma StripEmptyOnlyIfBlank(s: string, i: nat, a: string)
    requires i <= |s| && a == s[i..] && AllSpace(s[..i])
    requires a == [] || !IsSpace(a[0])
    ensures StripEnd(a) == [] <==> AllSpace(s)
  {
    var r := StripEnd(a);
    assert r != [] ==> r[0] == a[0] == s[i];
    assert r == [] ==> a[|r|..] == a;
    assert a == [] ==> s[..i] == s;
  }

  /** A string that starts and ends with a non-space character is already stripped. */
  lemma StripOfStripped(s: string)
    requires s == [] || (!IsSpace(s[0]) && !IsSpace(s[|s| - 1]))
    ensures Strip(s) == s
  {
    assert StripStart(s) == s;
    assert StripEnd(s) == s;
  }

  /** Stripping twice is stripping once. */
  lemma StripIdempotent(s: string)
    ensures Strip(Strip(s)) == Strip(s)
  {
    StripOfStripped(Strip(s));
  }

  // ---------------------------------------------------------------------
  // Joining

  /** Python's `sep.join(xs)`. */
  function Join(xs: seq<string>, sep: string): (r: string)
    ensures |xs| == 1 ==> r == xs[0]
  {
    if |xs| == 0 then ""
    else if |xs| == 1 then xs[0]
    else xs[0] + sep + Join(xs[1..], sep)
  }
}

=== FILE: tutorial.dfy ===
/** The tutorial cursor of `TutorialAPI`: a current step, the set of steps
    already left behind, and the three operations the assistant calls —
    `show`, `next_step` and `help`. Tutorial prose and code examples are
    opaque tokens, one per key. */
module Tutorial {
  import opened Wrappers
  import opened Text

  /** Keys of the content dictionary, in insertion order. */
  const ContentKeys: seq<string> :=
    ["welcome", "python_basics", "setup", "django_install", "create_project",
     "create_app", "models", "admin", "views", "test"]

  /** Keys of the code-example dictionary, in insertion order. */
  const SnippetKeys: seq<string> := ["models", "views", "urls", "template", "admin"]

  /** The fixed order `next_step` follows. */
  const Flow: seq<string> :=
    ["welcome", "python_basics", "setup", "django_install", "create_project",
     "create_app", "models", "admin", "views", "test"]

  /** The prose of a content key (opaque). */
  function ContentText(key: string): string {
    "<tutorial content: " + key + ">"
  }

  /** The source code of a code-example key (opaque). */
  function SnippetCode(key: string): string {
    "<code example: " + key + ">"
  }

  const PythonFenceOpen := "```python\n"
  const FenceEnd := "\n```"

  /** The markdown block `show` returns for a code example. */
  function FencedSnippet(key: string): string {
    PythonFenceOpen + SnippetCode(key) + FenceEnd
  }

  /** What `show` answers for a key it does not know. */
  const Listing := "Available topics: " + Join(ContentKeys, ", ") + "\nCode examples: " + Join(SnippetKeys, ", ")

  function Suggestion(topic: string): string {
    "Ready for the next step? Type: tutorial.show('" + topic + "')"
  }

  const CompletionMessage := "You've completed the tutorial! \U{1F389}"

  const VenvTip := "Virtual environment not active! Run: source blog_env/bin/activate (Mac/Linux) or blog_env\\Scripts\\activate (Windows)"
  const MigrateTip := "Run migrations: python manage.py makemigrations && python manage.py migrate"
  const TemplateTip := "Check template path: blog/templates/blog/post_list.html"
  const GenericTip := "Describe your error and I'll help! Common issues: virtual env, migrations, templates"

  /** The mutable part of a `TutorialAPI` object. */
  datatype State = State(current: string, completed: set<string>)

  /** The cursor names a content key and only content keys are ever completed. */
  ghost predicate Valid(s: State) {
    && s.current in ContentKeys
    && forall c | c in s.completed :: c in ContentKeys
  }

  /** `TutorialAPI.__init__`. */
  function Init(): (s: State)
    ensures Valid(s)
    ensures s.current == Flow[0] && s.completed == {}
  {
    State("welcome", {})
  }

  /** The answer of `show` together with the object's new state. */
  datatype Shown = Shown(text: string, state: State)

  /** `show(topic)`. A content key moves the cursor to `topic`, files the
      previous cursor under the completed steps and returns the prose. A key
      that is only a code-example key returns the example in a python fence
      and changes nothing; any other key returns the listing and changes
      nothing. The completed set never shrinks and the state stays valid. */
  function Show(s: State, topic: string): (r: Shown)
    ensures topic in ContentKeys ==>
      r.text == ContentText(topic) && r.state.current == topic && r.state.completed == s.completed + {s.current}
    ensures topic !in ContentKeys ==> r.state == s
    ensures topic !in ContentKeys && topic in SnippetKeys ==> r.text == FencedSnippet(topic)
    ensures topic !in ContentKeys && topic !in SnippetKeys ==> r.text == Listing
    ensures s.completed <= r.state.completed
    ensures Valid(s) ==> Valid(r.state)
  {
    if topic in ContentKeys then
      Shown(ContentText(topic), State(topic, s.completed + {s.current}))
    else if topic in SnippetKeys then
      Shown(FencedSnippet(topic), s)
    else
      Shown(Listing, s)
  }

  /** The code-example branch is reached exactly for `urls` and `template`:
      `models`, `views` and `admin` are content keys as well, and the content
      dictionary is consulted first. */
  lemma SnippetBranchOnlyUrlsAndTemplate(s: State, topic: string)
    ensures Show(s, topic).text == FencedSnippet(topic) <==> topic in {"urls", "template"}
  {
    if topic in ContentKeys {
      var k :| 0 <= k < |ContentKeys| && ContentKeys[k] == topic;
      ContentTokenNotFenced(topic);
    } else if topic !in SnippetKeys {
      ListingNotFenced(topic);
    }
  }

  lemma ContentTokenNotFenced(topic: string)
    ensures ContentText(topic) != FencedSnippet(topic)
  {
    assert ContentText(topic)[0] == '<';
    assert FencedSnippet(topic)[0] == '`';
  }

  lemma ListingNotFenced(topic: string)
    ensures Listing != FencedSnippet(topic)
  {
    assert Listing[0] == 'A';
    assert FencedSnippet(topic)[0] == '`';
  }

  /** The key the assistant's instructions advertise for the model example
      is unknown to `show`: it yields the listing and leaves the state alone. */
  lemma AdvertisedCodeKeyIsUnknown(s: State)
    ensures Show(s, "models_code") == Shown(Listing, s)
  {
    var t := "models_code";
    assert |t| == 11;
    assert t !in ContentKeys by {
      forall i | 0 <= i < |ContentKeys| ensures |ContentKeys[i]| != 11 {
      }
    }
    assert t !in SnippetKeys by {
      forall i | 0 <= i < |SnippetKeys| ensures |SnippetKeys[i]| != 11 {
      }
    }
  }

  /** Showing the same key twice in a row answers the same text both times,
      and a content key is completed afterwards. */
  lemma ShowTwice(s: State, topic: string)
    ensures Show(Show(s, topic).state, topic).text == Show(s, topic).text
    ensures topic in ContentKeys ==> topic in Show(Show(s, topic).state, topic).state.completed
  {
  }

  /** The state after a sequence of `show` calls. */
  function ShowAll(s: State, topics: seq<string>): State
    decreases |topics|
  {
    if |topics| == 0 then s else ShowAll(Show(s, topics[0]).state, topics[1..])
  }

  /** Over any sequence of `show` calls the state stays valid and no
      completed step is ever forgotten. */
  lemma {:induction false} ShowAllKeepsInvariant(s: State, topics: seq<string>)
    requires Valid(s)
    ensures Valid(ShowAll(s, topics))
    ensures s.completed <= ShowAll(s, topics).completed
    decreases |topics|
  {
    if |topics| > 0 {
      ShowAllKeepsInvariant(Show(s, topics[0]).state, topics[1..]);
    }
  }

  /** Position of the first occurrence of `x` in `xs`, as `list.index`. */
  function IndexOf(xs: seq<string>, x: string): (r: Option<nat>)
    ensures r.Some? ==> r.value < |xs| && xs[r.value] == x && x !in xs[..r.value]
    ensures r.None? ==> x !in xs
  {
    if |xs| == 0 then None
    else if xs[0] == x then Some(0)
    else match IndexOf(xs[1..], x)
      case None => None
      case Some(i) => assert xs[..i + 1] == [xs[0]] + xs[1..][..i]; Some(i + 1)
  }

  /** `next_step()`: a suggestion naming the step after the cursor in the
      flow, or the completion message when there is none or the cursor is
      not in the flow (the `ValueError` branch). */
  function NextStep(s: State): string {
    match IndexOf(Flow, s.current)
    case Some(i) =>
      if i < |Flow| - 1 then Suggestion(Flow[i + 1]) else CompletionMessage
    case None => CompletionMessage
  }

  lemma FlowDistinct()
    ensures forall i, j | 0 <= i < j < |Flow| :: Flow[i] != Flow[j]
  {
  }

  /** With the cursor at position `i` of the flow, `next_step` names the
      following step; at the last step it reports completion. */
  lemma NextStepSuccessor(s: State, i: nat)
    requires i < |Flow| && s.current == Flow[i]
    ensures i < |Flow| - 1 ==> NextStep(s) == Suggestion(Flow[i + 1])
    ensures i == |Flow| - 1 ==> NextStep(s) == CompletionMessage
  {
    FlowDistinct();
    var r := IndexOf(Flow, s.current);
    assert r.Some?;
    assert Flow[r.value] == Flow[i];
  }

  /** The flow lists exactly the content keys, so under the invariant the
      cursor is always found and the `ValueError` branch cannot be taken. */
  lemma NextStepCursorInFlow(s: State)
    requires Valid(s)
    ensures IndexOf(Flow, s.current).Some?
  {
  }

  /** At the last step, `next_step` reports completion rather than a topic. */
  lemma NextStepAtTest()
    ensures NextStep(State("test", {})) == CompletionMessage
    ensures forall s: State | s.current == "test" :: NextStep(s) == CompletionMessage
  {
    forall s: State | s.current == "test" ensures NextStep(s) == CompletionMessage {
      NextStepSuccessor(s, 9);
    }
  }

  /** `help(error)`: the lower-cased text is matched against ordered
      substring rules, the first rule that matches wins. */
  function Help(error: string): string {
    var e := ToLower(error);
    if Contains(e, "django not found") || Contains(e, "no module") then VenvTip
    else if Contains(e, "no such table") then MigrateTip
    else if Contains(e, "template") then TemplateTip
    else GenericTip
  }

  /** The four replies of `help` are pairwise different. */
  lemma HelpRepliesDistinct()
    ensures VenvTip != MigrateTip && VenvTip != TemplateTip && VenvTip != GenericTip
    ensures MigrateTip != TemplateTip && MigrateTip != GenericTip && TemplateTip != GenericTip
  {
    assert |VenvTip| == 116 && |MigrateTip| == 75 && |TemplateTip| == 55 && |GenericTip| == 84;
  }

  /** Each reply of `help` is given exactly when its rule is the first
      rule, in order, whose phrase occurs in the lower-cased text; the
      generic reply exactly when no phrase occurs. */
  lemma HelpFirstMatchWins(error: string)
    ensures var e := ToLower(error);
      && (Help(error) == VenvTip <==> Contains(e, "django not found") || Contains(e, "no module"))
      && (Help(error) == MigrateTip <==>
            !Contains(e, "django not found") && !Contains(e, "no module") && Contains(e, "no such table"))
      && (Help(error) == TemplateTip <==>
            !Contains(e, "django not found") && !Contains(e, "no module") && !Contains(e, "no such table")
            && Contains(e, "template"))
      && (Help(error) == GenericTip <==>
            !Contains(e, "django not found") && !Contains(e, "no module") && !Contains(e, "no such table")
            && !Contains(e, "template"))
  {
    HelpRepliesDistinct();
  }

  /** Matching ignores letter case. */
  lemma HelpCaseInsensitive(error: string)
    ensures Help(error) == Help(ToLower(error))
  {
    ToLowerIdempotent(error);
  }

  /** The default argument `""` gets the generic reply. */
  lemma HelpDefault()
    ensures Help("") == GenericTip
  {
  }
}

=== FILE: wrappers.dfy ===
/** The optional-value type the rest of the model uses for Python's `None`
    and for searches that may find nothing. */
module Wrappers {

  datatype Option<+T> = None | Some(value: T) {

    /** The wrapped value, or `default` when there is none. */
    function GetOr(default: T): T {
      match this
      case Some(v) => v
      case None => default
    }
  }
}
